=== FILE: README.md ===
# Cross-sell recommendation pipeline — a Dafny model

This project models the decision logic of a five-stage cross-sell/upsell
pipeline that answers one request for one customer identifier:

1. **customer context** — look the customer up in the purchases table and
   build a profile (identifier, name, industry, revenue, employees, location,
   distinct recent purchases), optionally re-formatted by the generative
   service;
2. **purchase pattern** — frequent products and the products the customer's
   industry commonly buys but the customer lacks, from a fixed industry table
   unless the service returns a dictionary holding both keys;
3. **product affinity** — related products from a fixed co-purchase table
   united with the service's suggestions, without duplicates;
4. **opportunity scoring** — a fixed-score list (0.8 cross-sell, 0.6 upsell)
   over the candidates, which a well-shaped service reply is meant to
   replace; never a purchased product. As written the reply is never used:
   building the scoring prompt raises first (see "Findings"). The pipeline
   composes the intended stage. The program as written is
   `Recommendation(id, env.(scoringReply := Raised(KeyError("\"product\""))))`
   (`ScoringAgent.AsWrittenIsRaisedReply`), so every pipeline lemma, holding
   for all replies, covers it too;
5. **recommendation report** — the text the report prompt is filled with,
   and the service's report trimmed of surrounding whitespace;

and the orchestrator that threads one state record through the stages in
that fixed order, aborts when the pattern stage yields an error, and builds
the endpoint's response.

Every call to the generative service is an input value
(`Wrappers.Reply<T>`: the call raised with a message, or returned text
already parsed to the shape the stage expects, including "unparsable"). The
data file is an input too (`CustomerData.DataSource`: its path, whether it
exists, and its rows). A run is therefore a pure function of the identifier
and that environment (`Pipeline.Env`), so in the model repeated runs with
the same environment give the same response. The program itself does not
promise that: the scoring fallback lists candidates in `list(set(...))`
order, and Python's per-process string hashing can change that order, and
so the order of the recommendations, from one process to the next. "The service is not asked" is
stated as "the result does not depend on the reply".

Python dictionaries whose keys may be missing (the profile, the patterns) are
records of `Option` fields plus an `error` field. This matters because a
refined profile or an accepted pattern reply is returned as-is: it may lack
`customer_id`, or carry an `error` key of its own.

Files, one module each: `wrappers.dfy` (Option, Reply, the `KeyError` text), `seqs.dfy`
(duplicate removal, filtering, subsequences), `text.dfy` (join, split, decimal
rendering, strip), `customer_data.dfy` (rows and lookup), `context_agent.dfy`,
`pattern_agent.dfy`, `affinity_agent.dfy`, `scoring_agent.dfy`,
`report_agent.dfy`, `pipeline.dfy`.

### Behaviour of the code worth knowing

- The pattern stage accepts a parsed reply when it is a dictionary holding
  both `frequent_products` and `missing_products`; the value types are not
  checked (agents/purchase_pattern_agent.py line 72).
- A raising service call is not absorbed everywhere. In the profile and
  pattern stages it becomes an error sentinel ("Failed to retrieve profile: …",
  "Failed to analyze patterns: …"). The pattern one aborts the run. In the
  affinity stage it gives the empty list, not the table suggestions.
- The co-purchase table is not symmetric ("Generators" lists
  "Backup Batteries", which has no entry).
- A profile error sentinel never reaches the response's profile-error
  branch. The sentinel has no `customer_id`, so the pattern node raises a
  `KeyError` first. An unknown customer or a missing data file therefore
  answers `Pipeline failed: 'customer_id'` (`ContextAgent.UnavailableProfileHasNoId`
  with `Pipeline.ProfileWithoutIdStopsPipeline`).
- A customer whose first row has no industry column gets the error
  "Failed to analyze patterns: 'Industry'" from the pattern stage.

## Model

| member | source | states |
|---|---|---|
| Seqs.Dedup | agents/customer_context_agent.py:53 | The distinct products: no duplicates, and exactly the elements of the input. |
| Seqs.DedupFirstOccurrenceOrder | agents/customer_context_agent.py:53 | `unique()` keeps first occurrences in order: an element listed earlier first occurs earlier in the input. |
| Seqs.Without | agents/purchase_pattern_agent.py:63 | The comprehension `[p for p in xs if p not in ys]`: exactly the elements of xs not in ys, as a subsequence of xs. |
| Seqs.WithoutAppend | agents/purchase_pattern_agent.py:63 | Filtering a concatenation filters each part, so every kept element keeps its multiplicity and position. |
| CustomerData.RowsOf | agents/customer_context_agent.py:40 | The id filter: a row is selected iff its identifier equals the requested one exactly; table order is kept. |
| CustomerData.RowsOfAppend | agents/customer_context_agent.py:40 | Selecting from a concatenation selects from each part, so every matching row is kept as often and where it occurs. |
| CustomerData.ProductsElements | agents/purchase_pattern_agent.py:51 | The product column as a list (`Products`, one entry per row): a product occurs in it exactly when some row holds it. |
| CustomerData.RowsOfStartsAtFirstMatch | agents/purchase_pattern_agent.py:52 | The first selected row (`iloc[0]`) is the earliest row of the table with that identifier. |
| ContextAgent.BuildProfile | agents/customer_context_agent.py:45-54 | The unrefined profile: requested id, no error, scalar fields of the first row with the literal defaults, distinct purchases of the rows. |
| ContextAgent.GetCustomerProfile | agents/customer_context_agent.py:29-66 | Missing file gives the "CSV file … not found" sentinel; no matching row gives "Customer ID <id> not found"; a raising call gives "Failed to retrieve profile: …"; an evaluated reply is returned as-is; an unevaluable reply leaves the unrefined profile. |
| ContextAgent.UnrefinedProfileFromTable | agents/customer_context_agent.py:45-53 | Without refinement the profile carries the requested id and the earliest matching row's fields with defaults, and its recent purchases are exactly the customer's products, each once. |
| ContextAgent.RecentPurchasesInFirstPurchaseOrder | agents/customer_context_agent.py:53 | Recent purchases are listed in the order of first purchase. |
| PatternAgent.StaticPatterns | agents/purchase_pattern_agent.py:55-63 | Fallback: frequent products are the distinct purchases; missing products are the industry entry's items not purchased, disjoint from purchases, a subsequence of the entry. |
| PatternAgent.AnalyzePurchasePatterns | agents/purchase_pattern_agent.py:39-84 | Sentinels for a missing file, an unknown id, a missing industry column and a raising call; a dictionary reply holding both keys replaces the fallback as-is; any other reply gives the fallback; without error both keys are present. |
| PatternAgent.FallbackPatterns | agents/purchase_pattern_agent.py:47-81 | With an unusable reply: frequent = the customer's distinct products; missing = the first row's industry entry without the customer's products, in table order. |
| PatternAgent.UnknownIndustryMissesNothing | agents/purchase_pattern_agent.py:63 | An industry absent from the table has no missing products. |
| PatternAgent.ElectronicsExample | agents/purchase_pattern_agent.py:55-63 | Electronics with Drill Bits, Protective Gloves, Generators, Workflow Automation: the frequent products are those four, each once (in no promised order), and the missing ones are Collaboration Suite, API Integrations, Advanced Analytics, in table order. |
| PatternAgent.ReplyNeedsBothKeys | agents/purchase_pattern_agent.py:70-81 | A dictionary reply holding both keys is returned as it is, whatever its lists hold and even with its own `error` key; lacking either key it gives the static analysis. |
| AffinityAgent.StaticSuggestions | agents/product_affinity_agent.py:54-56 | The concatenated table lookups contain every entry of every input product and nothing else; unlisted products add nothing. |
| AffinityAgent.SuggestRelatedProducts | agents/product_affinity_agent.py:34-75 | Empty input or a raising call gives []; otherwise exactly the union of table and parsed-list suggestions, without duplicates; a non-list or unparsable reply adds nothing. |
| AffinityAgent.EveryTableEntrySuggested | agents/product_affinity_agent.py:54-72 | Every table entry of every input product is in the result, whatever the service returns. |
| AffinityAgent.UnusableReplyGivesStaticOnly | agents/product_affinity_agent.py:63-72 | A non-list or unparsable reply leaves exactly the distinct table suggestions. |
| AffinityAgent.ListReplySuggestionsIncluded | agents/product_affinity_agent.py:63-72 | For non-empty `frequent_products`, a reply that parses to a list adds every one of its items, and the result holds nothing outside the list and the table entries. |
| ScoringAgent.Candidates | agents/opportunity_scoring_agent.py:48 | Candidates are (missing ∪ affinity) − purchased, each once. |
| ScoringAgent.StaticScore | agents/opportunity_scoring_agent.py:55-56 | 0.8 with the cross-sell rationale iff the product is in missing (so a product in both lists is cross-sell), else 0.6 with the upsell rationale. |
| ScoringAgent.Fallback | agents/opportunity_scoring_agent.py:53-57 | One fixed-score entry per candidate, in candidate order. |
| ScoringAgent.KeepUnpurchased | agents/opportunity_scoring_agent.py:72 | The accepted reply filter: no purchased product remains, every unpurchased item remains, nothing is invented. |
| ScoringAgent.KeepUnpurchasedAppend | agents/opportunity_scoring_agent.py:72 | Filtering a concatenation filters each part, so each unpurchased item is kept as often and where it occurs (a repeated item stays repeated). |
| ScoringAgent.KeepUnpurchasedPreservesOrder | agents/opportunity_scoring_agent.py:72 | The accepted items keep their order (the result is a subsequence of the reply). |
| ScoringAgent.KeepUnpurchasedKeepsAll | agents/opportunity_scoring_agent.py:72 | A reply with no purchased product is taken unchanged. |
| ScoringAgent.ScoreOpportunities | agents/opportunity_scoring_agent.py:41-78 | The scoring stage as intended: no purchased product is ever returned; no candidates gives []; a list of dictionaries all holding product, score and rationale is taken minus purchased items; anything else, a raising call included, gives the fallback. |
| ScoringAgent.MalformedItemGivesFallback | agents/opportunity_scoring_agent.py:70-73 | One reply item that is not a dictionary holding all three keys makes the whole reply refused: the fallback is returned. |
| ScoringAgent.FallbackCoversCandidates | agents/opportunity_scoring_agent.py:48-57 | The fallback scores each candidate exactly once, scores nothing else, and classes each as cross-sell iff it is missing. |
| Seqs.WithoutCovered | agents/opportunity_scoring_agent.py:48-50 | Removing every element of the list leaves nothing, so no candidate remains when all are purchased. |
| ScoringAgent.NoCandidatesNoCall | agents/opportunity_scoring_agent.py:48-50 | When every missing or affinity product is purchased the result is [] whatever the reply. |
| ScoringAgent.NoneMeansNothingPurchased | agents/opportunity_scoring_agent.py:46-47 | Passing no purchases behaves as passing an empty list. |
| ScoringAgent.EmptyValidReply | agents/opportunity_scoring_agent.py:70-72 | An empty reply list is accepted and gives []. |
| ScoringAgent.TwoCandidatesExample | agents/opportunity_scoring_agent.py:48-57 | missing=[X], affinity=[Y], nothing purchased, unusable reply: X at 0.8 cross-sell and Y at 0.6 upsell. |
| ScoringAgent.MissingArgument | agents/opportunity_scoring_agent.py:61-65 | `str.format` fails exactly when some placeholder has no keyword argument, and then names such a placeholder. |
| ScoringAgent.WrittenTemplateMissesProduct | agents/opportunity_scoring_agent.py:24-38 | The template's single-braced example object makes `"product"` a placeholder that no argument supplies. |
| ScoringAgent.AsWrittenIsRaisedReply | agents/opportunity_scoring_agent.py:59-78 | As written the stage is the intended one with a service call that raised the `KeyError` for `"product"`, whatever the service would reply. |
| ScoringAgent.AsWrittenNeverUsesReply | agents/opportunity_scoring_agent.py:41-78 | As written the stage returns [] or the fallback, whatever the service would reply. |
| ScoringAgent.AsWrittenIgnoresValidReply | agents/opportunity_scoring_agent.py:59-78 | A valid one-item reply scoring the only candidate is ignored as written: the fixed 0.8 cross-sell entry is returned. |
| ScoringAgent.IntendedUsesValidReply | agents/opportunity_scoring_agent.py:59-72 | With the braces doubled, the same reply is returned with its own score and rationale. |
| ScoringAgent.IntendedTemplateUsesReply | agents/opportunity_scoring_agent.py:59-78 | With the braces doubled the stage is exactly `ScoreOpportunities`, which the pipeline uses. |
| Text.SplitJoin | agents/recommendation_report_agent.py:84-86 | Lines joined with a separator that none contains split back into the same lines. |
| Text.JoinSplit | agents/recommendation_report_agent.py:84-86 | Splitting at a character and joining with it gives the text back. |
| Text.ParseNatToString | agents/recommendation_report_agent.py:85 | The decimal rendering of a line number reads back as that number. |
| Text.Strip | agents/recommendation_report_agent.py:99 | `strip()`: the result is the input minus whitespace-only ends and has no whitespace at either end. |
| ReportAgent.GenerateResearchReport | agents/recommendation_report_agent.py:73-103 | An `error` in profile or patterns gives exactly the missing-data text; a raising call gives "Failed to generate report: …"; otherwise the reply trimmed. |
| ReportAgent.SentinelReportIgnoresService | agents/recommendation_report_agent.py:78-79 | With a sentinel input the result depends neither on the opportunities nor on the reply. |
| ReportAgent.RecommendationsOnePerLine | agents/recommendation_report_agent.py:84-86 | When no product or rationale contains a newline, the recommendations text splits at newlines into exactly one line per opportunity, in input order. |
| ReportAgent.LineNumberIsPosition | agents/recommendation_report_agent.py:85 | Line i starts with the number i + 1 (1-based numbering). |
| ReportAgent.MissingRationaleDefault | agents/recommendation_report_agent.py:85 | A missing rationale is rendered as "No rationale provided". |
| ReportAgent.RationaleLine | agents/recommendation_report_agent.py:85 | An opportunity with a rationale is listed as "<i + 1>. <product> (<rationale>)". |
| ReportAgent.RecommendationsText | agents/recommendation_report_agent.py:84-86 | The literal "No recommendations available due to lack of scored opportunities." appears exactly when there are no opportunities. |
| ReportAgent.NoOpportunitiesPrompt | agents/recommendation_report_agent.py:86 | No scored opportunities put that literal text into the prompt. |
| ReportAgent.PromptDefaults | agents/recommendation_report_agent.py:82-94 | The prompt's identifier and industry default to "Unknown", the revenue to 0.0, and absent or empty purchase and missing-product lists give empty text; present identifier, industry and revenue are passed on, and a non-empty purchase list whose items hold no comma is joined into text that splits back at commas into the items. |
| ReportAgent.PatternSummaryShape | agents/recommendation_report_agent.py:82 | The summary is "Frequent Purchases: " then the frequent products joined with ", "; nothing after the prefix when absent or empty. |
| ReportAgent.MissingProductsTextSplits | agents/recommendation_report_agent.py:83 | The missing-products text splits back at commas into the products. |
| Pipeline.RunNode | main.py:33-73 | A node that does not raise writes its own state field and leaves every other field unchanged. |
| Pipeline.ContextStep | main.py:33-37 | The customer-context node always continues, writing the profile for the state's identifier. |
| Pipeline.PatternStepWithoutId | main.py:39-41 | The purchase-pattern node raises the `KeyError` for `customer_id` when the profile lacks it. |
| Pipeline.PatternStepWithError | main.py:42-45 | The purchase-pattern node raises the error the patterns carry. |
| Pipeline.PatternStepContinues | main.py:41-47 | Error-free patterns are written and the run moves to the affinity stage. |
| Pipeline.AffinityStep | main.py:49-53 | The affinity node writes the suggestions for the patterns' frequent products. |
| Pipeline.ScoringStep | main.py:55-63 | The scoring node writes the scores of the missing products and affinity list against the profile's purchases, none when absent. |
| Pipeline.ReportStep | main.py:65-73 | The report node writes the report for the profile, patterns and scores, and the run ends. |
| Pipeline.ChainFromStart | main.py:83-91 | The edges from the entry point visit customer context, purchase pattern, product affinity, opportunity scoring and recommendation report, then end. |
| Pipeline.RunFromWritesChain | main.py:76-92 | A run that finishes keeps the identifier and every field already written, and has written the field of every stage it ran. |
| Pipeline.RunStopsWithinChain | main.py:76-92 | A run that stops does so at a stage of the chain from where it started (customer context, purchase pattern, product affinity, opportunity scoring, recommendation report, in that order), with a message that stage's node raises. |
| Pipeline.RunMatchesDirectRun | main.py:33-92 | The stage machine computes exactly the straight-line composition of the five stages. |
| Pipeline.OnlyPatternStageAborts | main.py:39-88 | A run that stops early stops at the purchase-pattern stage; the other four nodes never raise. |
| Pipeline.PatternErrorStopsPipeline | main.py:43-45 | Patterns carrying `error` abort the run with "Pipeline failed: " and that error (the handler at line 121). |
| Pipeline.ProfileWithoutIdStopsPipeline | main.py:39-41 | A profile without `customer_id` (any error sentinel) aborts at the purchase-pattern stage with "Pipeline failed: 'customer_id'". |
| ContextAgent.UnavailableProfileHasNoId | agents/customer_context_agent.py:35-43 | A missing data file or an unknown customer gives an error profile without `customer_id`. |
| Pipeline.CompletedRun | main.py:49-118 | On a completed run affinity is computed from `frequent_products`, scoring from `missing_products`, that list and the profile's purchases (none when absent), and the response has the report and the scored opportunities, unless the profile carries `error`, which is answered instead. |
| Pipeline.RespondCases | main.py:106-118 | The report and scores are answered exactly when profile, patterns, report and scores are present and neither profile nor patterns carries `error`; otherwise the profile's error comes before the patterns' error. |
| Pipeline.RecommendationCases | main.py:95-121 | The endpoint's answer in each case: "Pipeline failed: 'customer_id'" for a profile without identifier, "Pipeline failed: " and the patterns' error, the profile's own error, or the report with the scores of the patterns' products. |
| Pipeline.NeverRecommendsPurchased | main.py:55-62 | A successful response never recommends a product among the profile's recent purchases. |

## Findings

| source | as written | input that shows it | evidently intended | confidence | as-written member | corrected member |
|---|---|---|---|---|---|---|
| agents/opportunity_scoring_agent.py:34 | The example object in the scoring template is written with single braces, so `str.format` reads `"product"` as a placeholder; no argument supplies it, formatting raises `KeyError`, and the handler at lines 77-78 returns the fallback without the service being asked. | missing = [X], no affinity, nothing purchased, and a service that would reply `[{"product": X, "score": 0.95, "rationale": "r"}]`: the result is X at 0.8 with the cross-sell rationale. | The braces doubled, as in the pattern prompt (agents/purchase_pattern_agent.py:31,34), so a valid reply replaces the fallback. | medium — read from the text, not executed | ScoringAgent.AsWrittenIgnoresValidReply | ScoringAgent.IntendedUsesValidReply |

## Left out

- Reading the delimited file (pandas), the data-file path from the environment, and the existence check: the table is given as rows with a presence flag.
- Columns that pandas could lack or mistype: the identifier and product columns are always present, identifiers are compared as strings, and empty cells are not modelled.
- Client construction, the canned fallback responders and the prompt template text: each stage's service call is an input `Reply`.
- JSON parsing and the evaluation of the profile reply: only their outcomes are modelled. Out of range are an evaluated reply that is not a dictionary, pattern values that are not string lists, scoring items whose product is not a string or whose score is not a number, a scoring item whose `rationale` is `null` or not text (the code tests only that the key is present, keeps such an item and prints its rationale as `None` or as that value in the report; `WellShaped` rejects it, so the model returns the fallback), keys of accepted scoring items other than product, score and rationale (the code returns the items with any extra keys; `ToOpportunity` keeps only those three), and affinity items that are not strings. Python would raise on some of these, for example on unhashable items in `set`.
- ContextAgent.GetCustomerProfile: an evaluated profile's values are assumed to have the types of the built profile (text, number, list of text), and a key present with the value `None` counts as absent. The program differs on such dictionaries: `"recent_purchases": None` is passed to scoring as no purchases but makes the report's `", ".join` raise ("Failed to generate report: …"), and `"recent_purchases"` given as text makes scoring exclude single characters rather than products, so `Pipeline.NeverRecommendsPurchased` covers list-typed purchases only.
- Floating point: scores and revenue are exact reals; model-supplied scores are not range-checked, as in the code.
- The scoring stage's outer handler that returns an unbound fallback when an exception occurs before the fallback exists (agents/opportunity_scoring_agent.py:77-78).
- Exceptions inside a stage other than the raising service call and the missing keys listed above.
- Logging, `print`, FastAPI routing, asynchronous invocation, the graph library's internals and dotenv loading.
- Python's set iteration order: `list(set(...))` is modelled by first-occurrence de-duplication, and the contracts of SuggestRelatedProducts, Candidates and StaticPatterns promise only element sets and distinctness, because the code promises no order.
- The report's content: the service writes it; only the prompt values and the trimming are modelled, with the revenue kept as a number rather than rendered as text.

=== FILE: affinity_agent.dfy ===
/** The product-affinity stage: products related to the customer's frequent
    purchases, the union of a fixed co-purchase table and the generative
    service's suggestions, without duplicates. */
module AffinityAgent {
  import opened Wrappers
  import opened Seqs

  /** Product to the products commonly bought with it. The table is not
      symmetric: "Generators" lists "Backup Batteries", which has no entry. */
  const AffinityMap: map<string, seq<string>> := map[
    "Generators" := ["Backup Batteries", "Power Cords"],
    "Drills" := ["Drill Bits", "Protective Gloves"],
    "Advanced Analytics" := ["API Integrations", "Workflow Automation"],
    "Collaboration Suite" := ["Advanced Analytics", "Workflow Automation"],
    "Workflow Automation" := ["AI Insights Module", "API Integrations"],
    "Drill Bits" := ["Drills", "Protective Gloves"],
    "Protective Gloves" := ["Safety Gear", "Drills"]
  ]

  /** `affinity_map.get(product, [])`. */
  function AffinityOf(product: string): seq<string> {
    if product in AffinityMap then AffinityMap[product] else []
  }

  /** The table entries of `products`, concatenated in input order. */
  function StaticSuggestions(products: seq<string>): (r: seq<string>)
    ensures forall i, x :: 0 <= i < |products| && x in AffinityOf(products[i]) ==> x in r
    ensures forall x :: x in r ==> exists i :: 0 <= i < |products| && x in AffinityOf(products[i])
    decreases |products|
  {
    if products == [] then []
    else
      var rest := StaticSuggestions(products[1..]);
      assert forall i :: 1 <= i < |products| ==> products[i] == products[1..][i - 1];
      AffinityOf(products[0]) + rest
  }

  /** What the service's reply text parsed to. */
  datatype AffinityJson =
    | AffinityUnparsable
    | AffinityNotList
    | AffinityList(items: seq<string>)

  /** The service's suggestions: the parsed list, or empty when the reply is
      not a list or does not parse. */
  function DynamicSuggestions(json: AffinityJson): seq<string> {
    match json
    case AffinityList(items) => items
    case _ => []
  }

  /** `suggest_related_products`: empty for no input or a raising service
      call; otherwise every suggestion from the table or the service, each
      once. The order of Python's `list(set(...))` is unspecified, so only
      the element set is promised. */
  function SuggestRelatedProducts(frequent: seq<string>, reply: Reply<AffinityJson>): (r: seq<string>)
    ensures Distinct(r)
    ensures frequent == [] ==> r == []
    ensures reply.Raised? ==> r == []
    ensures frequent != [] && reply.Returned? ==>
              forall x :: x in r <==> x in StaticSuggestions(frequent) || x in DynamicSuggestions(reply.value)
  {
    if frequent == [] then []
    else
      match reply
      case Raised(_) => []
      case Returned(json) => Dedup(StaticSuggestions(frequent) + DynamicSuggestions(json))
  }

  /** Every table entry of every input product is suggested, whatever the
      service returns, unless its call raised. */
  lemma EveryTableEntrySuggested(frequent: seq<string>, json: AffinityJson)
    ensures forall i, x :: 0 <= i < |frequent| && x in AffinityOf(frequent[i]) ==>
              x in SuggestRelatedProducts(frequent, Returned(json))
  {
  }

  /** A reply that is not a list, or does not parse, leaves exactly the
      distinct table suggestions. */
  lemma UnusableReplyGivesStaticOnly(frequent: seq<string>, json: AffinityJson)
    requires !json.AffinityList?
    ensures SuggestRelatedProducts(frequent, Returned(json)) == Dedup(StaticSuggestions(frequent))
  {
    assert StaticSuggestions(frequent) + [] == StaticSuggestions(frequent);
  }

  /** A reply that parses to a list adds every one of its items to the table
      suggestions, each once, and nothing beyond the two sources. */
  lemma ListReplySuggestionsIncluded(frequent: seq<string>, items: seq<string>)
    requires frequent != []
    ensures var r := SuggestRelatedProducts(frequent, Returned(AffinityList(items)));
      && (forall i :: 0 <= i < |items| ==> items[i] in r)
      && (forall x :: x in r ==> x in items || exists i :: 0 <= i < |frequent| && x in AffinityOf(frequent[i]))
  {
  }
}

=== FILE: context_agent.dfy ===
/** The customer-context stage: looks the customer up in the purchases table,
    builds a profile record, and offers it to the generative service for
    re-formatting, keeping the unrefined profile when the reply cannot be
    evaluated. */
module ContextAgent {
  import opened Wrappers
  import opened Seqs
  import opened CustomerData

  /** The profile dictionary. Every key may be absent, because a refined
      profile is whatever dictionary the service's reply evaluates to; the
      error sentinel is the dictionary holding only `error`. */
  datatype Profile = Profile(
    customerId: Option<string>,
    customerName: Option<string>,
    industry: Option<string>,
    revenue: Option<real>,
    employees: Option<int>,
    location: Option<string>,
    recentPurchases: Option<seq<string>>,
    error: Option<string>)

  /** The dictionary `{"error": message}`. */
  function Sentinel(message: string): (p: Profile)
    ensures p.error == Some(message) && p.customerId.None?
  {
    Profile(None, None, None, None, None, None, None, Some(message))
  }

  /** What evaluating the service's reply text produced: either evaluation
      failed, or it produced a dictionary. */
  datatype Refinement = Unevaluable | Evaluated(profile: Profile)

  const UnknownText: string := "Unknown"

  /** The unrefined profile of a customer whose rows are `rows` (all carrying
      `customerId`): scalar fields from the first row with their literal
      defaults, and the distinct products in first-occurrence order. */
  function BuildProfile(customerId: string, rows: seq<Row>): (p: Profile)
    requires rows != []
    ensures p.customerId == Some(customerId) && p.error.None?
    ensures p.customerName == Some(rows[0].customerName.GetOr(UnknownText))
    ensures p.industry == Some(rows[0].industry.GetOr(UnknownText))
    ensures p.revenue == Some(rows[0].revenue.GetOr(0.0))
    ensures p.employees == Some(rows[0].employees.GetOr(0))
    ensures p.location == Some(rows[0].location.GetOr(UnknownText))
    ensures p.recentPurchases.Some? && Distinct(p.recentPurchases.value)
    ensures forall x :: x in p.recentPurchases.value <==> exists row :: row in rows && row.product == x
  {
    ProductsElements(rows);
    Profile(
      Some(customerId),
      Some(rows[0].customerName.GetOr(UnknownText)),
      Some(rows[0].industry.GetOr(UnknownText)),
      Some(rows[0].revenue.GetOr(0.0)),
      Some(rows[0].employees.GetOr(0)),
      Some(rows[0].location.GetOr(UnknownText)),
      Some(Dedup(Products(rows))),
      None)
  }

  /** `get_customer_profile`: the error sentinel for a missing file or an
      unknown identifier, the error sentinel carrying the exception text when
      the service call raises, the evaluated dictionary as-is when the reply
      evaluates, and otherwise the unrefined profile. */
  function GetCustomerProfile(source: DataSource, customerId: string, reply: Reply<Refinement>): (p: Profile)
    ensures !source.present ==> p == Sentinel(MissingFileMessage(source.path))
    ensures source.present && (forall row :: row in source.rows ==> row.customerId != customerId) ==>
              p == Sentinel(NotFoundMessage(customerId))
    ensures source.present && (exists row :: row in source.rows && row.customerId == customerId) ==>
              match reply
              case Raised(m) => p == Sentinel("Failed to retrieve profile: " + m)
              case Returned(Evaluated(q)) => p == q
              case Returned(Unevaluable) => p == BuildProfile(customerId, RowsOf(source.rows, customerId))
  {
    if !source.present then Sentinel(MissingFileMessage(source.path))
    else
      var rows := RowsOf(source.rows, customerId);
      if rows == [] then Sentinel(NotFoundMessage(customerId))
      else
        var profile := BuildProfile(customerId, rows);
        match reply
        case Raised(m) => Sentinel("Failed to retrieve profile: " + m)
        case Returned(Unevaluable) => profile
        case Returned(Evaluated(q)) => q
  }

  /** When the refinement cannot be evaluated, the profile is built from the
      table: the requested identifier, the scalar fields of the earliest
      matching row (index `k`), and as recent purchases every product the
      customer bought, once each, in the order of first purchase. */
  lemma {:induction false} UnrefinedProfileFromTable(source: DataSource, customerId: string, k: nat)
    requires source.present
    requires k < |source.rows| && source.rows[k].customerId == customerId
    requires forall j :: 0 <= j < k ==> source.rows[j].customerId != customerId
    ensures var p := GetCustomerProfile(source, customerId, Returned(Unevaluable));
      && p.customerId == Some(customerId) && p.error.None?
      && p.customerName == Some(source.rows[k].customerName.GetOr(UnknownText))
      && p.industry == Some(source.rows[k].industry.GetOr(UnknownText))
      && p.revenue == Some(source.rows[k].revenue.GetOr(0.0))
      && p.employees == Some(source.rows[k].employees.GetOr(0))
      && p.location == Some(source.rows[k].location.GetOr(UnknownText))
      && p.recentPurchases.Some? && Distinct(p.recentPurchases.value)
      && (forall x :: x in p.recentPurchases.value <==>
            exists row :: row in source.rows && row.customerId == customerId && row.product == x)
  {
    var rows := RowsOf(source.rows, customerId);
    RowsOfStartsAtFirstMatch(source.rows, customerId, k);
    var p := GetCustomerProfile(source, customerId, Returned(Unevaluable));
    assert p == BuildProfile(customerId, rows);
  }

  /** The recent purchases of an unrefined profile list products in the order
      the customer first bought them. */
  lemma RecentPurchasesInFirstPurchaseOrder(customerId: string, rows: seq<Row>)
    requires rows != []
    ensures var ps := BuildProfile(customerId, rows).recentPurchases.value;
      forall i, j :: 0 <= i < j < |ps| ==>
        FirstIndex(Products(rows), ps[i]) < FirstIndex(Products(rows), ps[j])
  {
    DedupFirstOccurrenceOrder(Products(rows));
  }

  /** A missing data file or an unknown customer yields a profile without
      identifier. */
  lemma UnavailableProfileHasNoId(source: DataSource, customerId: string, reply: Reply<Refinement>)
    requires !source.present || forall row :: row in source.rows ==> row.customerId != customerId
    ensures GetCustomerProfile(source, customerId, reply).customerId.None?
    ensures GetCustomerProfile(source, customerId, reply).error.Some?
  {
  }
}

=== FILE: customer_data.dfy ===
/** The purchases table both lookup stages read: one row per purchase event,
    several rows per customer. Reading the delimited file is not modelled; the
    table is given as its rows, with a flag for whether the file exists. */
module CustomerData {
  import opened Wrappers
  import opened Seqs

  /** One purchase row. The identifier and product columns are always present;
      an optional column the file does not have reads as `None`, which is
      what makes `row.get(column, default)` fall back to its default. */
  datatype Row = Row(
    customerId: string,
    customerName: Option<string>,
    industry: Option<string>,
    revenue: Option<real>,
    employees: Option<int>,
    location: Option<string>,
    product: string)

  /** The configured data file: its path, whether it exists, and its rows. */
  datatype DataSource = DataSource(path: string, present: bool, rows: seq<Row>)

  /** The sentinel text for a missing data file. */
  function MissingFileMessage(path: string): string {
    "CSV file " + path + " not found"
  }

  /** The sentinel text for an identifier with no rows. */
  function NotFoundMessage(customerId: string): string {
    "Customer ID " + customerId + " not found"
  }

  /** The rows whose identifier equals `customerId` exactly, in table order
      (`df[df["Customer ID"] == customer_id]`). */
  function RowsOf(rows: seq<Row>, customerId: string): (r: seq<Row>)
    ensures forall row :: row in r <==> row in rows && row.customerId == customerId
    ensures IsSubsequence(r, rows)
    decreases |rows|
  {
    if rows == [] then []
    else
      var rest := RowsOf(rows[1..], customerId);
      assert rows == [rows[0]] + rows[1..];
      if rows[0].customerId == customerId then
        assert ([rows[0]] + rest)[1..] == rest;
        [rows[0]] + rest
      else
        assert rest == [] || rest[0] != rows[0];
        rest
  }

  /** Selecting from a concatenation selects from each part: every matching
      row is kept as often and where it occurs. */
  lemma {:induction false} RowsOfAppend(a: seq<Row>, b: seq<Row>, customerId: string)
    ensures RowsOf(a + b, customerId) == RowsOf(a, customerId) + RowsOf(b, customerId)
    decreases |a|
  {
    if a == [] {
      assert a + b == b;
    } else {
      assert (a + b)[1..] == a[1..] + b;
      assert (a + b)[0] == a[0];
      RowsOfAppend(a[1..], b, customerId);
    }
  }

  /** The first selected row is the earliest row of the table that carries the
      identifier. */
  lemma {:induction false} RowsOfStartsAtFirstMatch(rows: seq<Row>, customerId: string, k: nat)
    requires k < |rows| && rows[k].customerId == customerId
    requires forall j :: 0 <= j < k ==> rows[j].customerId != customerId
    ensures RowsOf(rows, customerId) != [] && RowsOf(rows, customerId)[0] == rows[k]
    decreases k
  {
    if k > 0 {
      RowsOfStartsAtFirstMatch(rows[1..], customerId, k - 1);
    }
  }

  /** The product column of some rows, as a list (`rows["Product"].tolist()`). */
  function Products(rows: seq<Row>): (ps: seq<string>)
    ensures |ps| == |rows|
  {
    seq(|rows|, i requires 0 <= i < |rows| => rows[i].product)
  }

  /** A product occurs in the product column exactly when some row holds it. */
  lemma ProductsElements(rows: seq<Row>)
    ensures forall p :: p in Products(rows) <==> exists row :: row in rows && row.product == p
  {
    var ps := Products(rows);
    forall p | p in ps ensures exists row :: row in rows && row.product == p {
      var i :| 0 <= i < |ps| && ps[i] == p;
      assert rows[i] in rows;
    }
    forall p | exists row :: row in rows && row.product == p ensures p in ps {
      var row :| row in rows && row.product == p;
      var i :| 0 <= i < |rows| && rows[i] == row;
      assert ps[i] == p;
    }
  }
}

=== FILE: pattern_agent.dfy ===
/** The purchase-pattern stage: for one customer, the products bought
    frequently and the products the customer's industry commonly buys that
    the customer lacks. A static answer from a fixed industry table is the
    fallback; a well-shaped reply of the generative service replaces it. */
module PatternAgent {
  import opened Wrappers
  import opened Seqs
  import opened CustomerData

  /** The patterns dictionary. A reply of the service is returned as the
      dictionary it parsed to, so the list values are kept as they came and
      the dictionary may even carry an `error` key; the error sentinel holds
      only `error`. */
  datatype Patterns = Patterns(
    frequentProducts: Option<seq<string>>,
    missingProducts: Option<seq<string>>,
    error: Option<string>)

  /** The dictionary `{"error": message}`. */
  function Sentinel(message: string): (p: Patterns)
    ensures p.error == Some(message)
    ensures p.frequentProducts.None? && p.missingProducts.None?
  {
    Patterns(None, None, Some(message))
  }

  /** What the service's reply text parsed to. */
  datatype PatternJson =
    | PatternUnparsable
    | PatternNotObject
    | PatternObject(fields: Patterns)

  /** Industry name to the products its peers commonly buy, in table order. */
  const IndustryPatterns: map<string, seq<string>> := map[
    "Electronics" := ["Collaboration Suite", "API Integrations", "Advanced Analytics"],
    "Apparel" := ["Advanced Analytics", "Workflow Automation"],
    "Hospitality" := ["API Integrations", "Workflow Automation"],
    "Construction" := ["Backup Batteries", "Safety Gear", "Heavy Equipment"],
    "Energy" := ["AI Insights Module", "Collaboration Suite"]
  ]

  /** `industry_patterns.get(industry, [])`. */
  function IndustryProducts(industry: string): seq<string> {
    if industry in IndustryPatterns then IndustryPatterns[industry] else []
  }

  /** The static analysis of a customer who bought `products` (one entry per
      purchase row) in `industry`. */
  function StaticPatterns(products: seq<string>, industry: string): (p: Patterns)
    ensures p.error.None? && p.frequentProducts.Some? && p.missingProducts.Some?
    ensures Distinct(p.frequentProducts.value)
    ensures forall x :: x in p.frequentProducts.value <==> x in products
    ensures forall x :: x in p.missingProducts.value <==> x in IndustryProducts(industry) && x !in products
    ensures IsSubsequence(p.missingProducts.value, IndustryProducts(industry))
  {
    Patterns(Some(Dedup(products)), Some(Without(IndustryProducts(industry), products)), None)
  }

  /** A parsed reply is taken exactly when it is a dictionary holding both
      keys; the values are not checked. */
  predicate Accepted(json: PatternJson) {
    json.PatternObject? && json.fields.frequentProducts.Some? && json.fields.missingProducts.Some?
  }

  /** `analyze_purchase_patterns`. */
  function AnalyzePurchasePatterns(source: DataSource, customerId: string, reply: Reply<PatternJson>): (p: Patterns)
    ensures p.error.None? ==> p.frequentProducts.Some? && p.missingProducts.Some?
    ensures !source.present ==> p == Sentinel(MissingFileMessage(source.path))
    ensures source.present && (forall row :: row in source.rows ==> row.customerId != customerId) ==>
              p == Sentinel(NotFoundMessage(customerId))
    ensures source.present && RowsOf(source.rows, customerId) != [] ==>
              var rows := RowsOf(source.rows, customerId);
              if rows[0].industry.None? then p == Sentinel("Failed to analyze patterns: " + KeyError("Industry"))
              else match reply
                case Raised(m) => p == Sentinel("Failed to analyze patterns: " + m)
                case Returned(json) =>
                  if Accepted(json) then p == json.fields
                  else p == StaticPatterns(Products(rows), rows[0].industry.value)
  {
    if !source.present then Sentinel(MissingFileMessage(source.path))
    else
      var rows := RowsOf(source.rows, customerId);
      if rows == [] then Sentinel(NotFoundMessage(customerId))
      else if rows[0].industry.None? then Sentinel("Failed to analyze patterns: " + KeyError("Industry"))
      else
        var fallback := StaticPatterns(Products(rows), rows[0].industry.value);
        match reply
        case Raised(m) => Sentinel("Failed to analyze patterns: " + m)
        case Returned(json) => if Accepted(json) then json.fields else fallback
  }

  /** With an unusable reply, the customer's frequent products are the distinct
      products of their rows, and the missing products are their industry's
      table entry (found through the first matching row) without the products
      they bought: disjoint from the purchases, in table order. */
  lemma FallbackPatterns(source: DataSource, customerId: string, json: PatternJson, k: nat)
    requires source.present && !Accepted(json)
    requires k < |source.rows| && source.rows[k].customerId == customerId
    requires forall j :: 0 <= j < k ==> source.rows[j].customerId != customerId
    requires source.rows[k].industry.Some?
    ensures var p := AnalyzePurchasePatterns(source, customerId, Returned(json));
      var entry := IndustryProducts(source.rows[k].industry.value);
      && p.error.None? && Distinct(p.frequentProducts.value)
      && (forall x :: x in p.frequentProducts.value <==>
            exists row :: row in source.rows && row.customerId == customerId && row.product == x)
      && IsSubsequence(p.missingProducts.value, entry)
      && (forall x :: x in p.missingProducts.value <==>
            x in entry && !exists row :: row in source.rows && row.customerId == customerId && row.product == x)
  {
    var rows := RowsOf(source.rows, customerId);
    RowsOfStartsAtFirstMatch(source.rows, customerId, k);
    ProductsElements(rows);
  }

  /** An industry missing from the table has no missing products. */
  lemma UnknownIndustryMissesNothing(products: seq<string>, industry: string)
    requires industry !in IndustryPatterns
    ensures StaticPatterns(products, industry).missingProducts == Some([])
  {
  }

  /** The Electronics customer of the sample data: owning Drill Bits,
      Protective Gloves, Generators and Workflow Automation, their frequent
      products are those four, each once, and they miss exactly the three
      Electronics products, in table order. */
  lemma ElectronicsExample()
    ensures var owned := ["Drill Bits", "Protective Gloves", "Generators", "Workflow Automation"];
      var p := StaticPatterns(owned, "Electronics");
      && p.error.None?
      && Distinct(p.frequentProducts.value)
      && (forall x :: x in p.frequentProducts.value <==> x in owned)
      && p.missingProducts == Some(["Collaboration Suite", "API Integrations", "Advanced Analytics"])
  {
    var owned := ["Drill Bits", "Protective Gloves", "Generators", "Workflow Automation"];
    var entry := ["Collaboration Suite", "API Integrations", "Advanced Analytics"];
    assert IndustryProducts("Electronics") == entry;
    assert entry[0] !in owned && entry[1] !in owned && entry[2] !in owned;
    WithoutDisjoint(entry, owned);
  }

  /** A dictionary reply is judged by its keys alone: holding both
      `frequent_products` and `missing_products` it is returned as it is,
      whatever the lists hold and even with an `error` key of its own;
      lacking either key it gives the static analysis. */
  lemma ReplyNeedsBothKeys(source: DataSource, customerId: string, fields: Patterns)
    requires source.present && RowsOf(source.rows, customerId) != []
    requires RowsOf(source.rows, customerId)[0].industry.Some?
    ensures var rows := RowsOf(source.rows, customerId);
      AnalyzePurchasePatterns(source, customerId, Returned(PatternObject(fields)))
      == if fields.frequentProducts.Some? && fields.missingProducts.Some? then fields
         else StaticPatterns(Products(rows), rows[0].industry.value)
  {
  }
}

=== FILE: pipeline.dfy ===
/** The orchestrator: one state record threaded through five stages in a
    fixed linear order, and the response assembled from the final state.
    Every generative call and the data file are inputs (`Env`), so a run is
    a pure function of the customer identifier and its environment. */
module Pipeline {
  import opened Wrappers
  import opened CustomerData
  import opened ContextAgent
  import opened PatternAgent
  import opened AffinityAgent
  import opened ScoringAgent
  import opened ReportAgent

  /** The shared state; a field is `None` until its stage has written it. */
  datatype State = State(
    customerId: string,
    customerProfile: Option<Profile>,
    purchasePatterns: Option<Patterns>,
    productAffinity: Option<seq<string>>,
    scoredOpportunities: Option<seq<Opportunity>>,
    researchReport: Option<string>)

  /** The state a request starts from: only the identifier. */
  function Initial(customerId: string): State {
    State(customerId, None, None, None, None, None)
  }

  /** Everything outside the pipeline one request depends on: the data file
      and what each stage's generative call yields. */
  datatype Env = Env(
    source: DataSource,
    profileReply: Reply<Refinement>,
    patternReply: Reply<PatternJson>,
    affinityReply: Reply<AffinityJson>,
    scoringReply: Reply<ScoringJson>,
    reportReply: Reply<string>)

  datatype Stage =
    | CustomerContext
    | PurchasePattern
    | ProductAffinity
    | OpportunityScoring
    | RecommendationReport
    | End

  /** The graph's edges: each stage has exactly one successor. */
  function Next(stage: Stage): (next: Stage)
    requires stage != End
    ensures Remaining(next) + 1 == Remaining(stage)
  {
    match stage
    case CustomerContext => PurchasePattern
    case PurchasePattern => ProductAffinity
    case ProductAffinity => OpportunityScoring
    case OpportunityScoring => RecommendationReport
    case RecommendationReport => End
  }

  /** How many stages are left to run. */
  function Remaining(stage: Stage): nat {
    match stage
    case CustomerContext => 5
    case PurchasePattern => 4
    case ProductAffinity => 3
    case OpportunityScoring => 2
    case RecommendationReport => 1
    case End => 0
  }

  /** The stages run from `stage` when none raises. */
  function Chain(stage: Stage): seq<Stage>
    decreases Remaining(stage)
  {
    if stage == End then [] else [stage] + Chain(Next(stage))
  }

  /** The state fields the stages write. */
  datatype Field = ProfileField | PatternsField | AffinityField | ScoredField | ReportField

  /** The one field each stage writes. */
  function Writes(stage: Stage): Field
    requires stage != End
  {
    match stage
    case CustomerContext => ProfileField
    case PurchasePattern => PatternsField
    case ProductAffinity => AffinityField
    case OpportunityScoring => ScoredField
    case RecommendationReport => ReportField
  }

  predicate Has(s: State, f: Field) {
    match f
    case ProfileField => s.customerProfile.Some?
    case PatternsField => s.purchasePatterns.Some?
    case AffinityField => s.productAffinity.Some?
    case ScoredField => s.scoredOpportunities.Some?
    case ReportField => s.researchReport.Some?
  }

  /** `s` and `t` agree on every field except possibly `f`. */
  predicate SameExcept(s: State, t: State, f: Field) {
    && s.customerId == t.customerId
    && (f != ProfileField ==> s.customerProfile == t.customerProfile)
    && (f != PatternsField ==> s.purchasePatterns == t.purchasePatterns)
    && (f != AffinityField ==> s.productAffinity == t.productAffinity)
    && (f != ScoredField ==> s.scoredOpportunities == t.scoredOpportunities)
    && (f != ReportField ==> s.researchReport == t.researchReport)
  }

  /** A node either hands on the updated state or raises. */
  datatype Step = Continue(state: State) | Raise(message: string)

  function CustomerContextNode(s: State, env: Env): Step {
    Continue(s.(customerProfile := Some(GetCustomerProfile(env.source, s.customerId, env.profileReply))))
  }

  /** Reads the identifier from the profile (raising when the profile lacks
      it), and raises the patterns' error when they carry one. */
  function PurchasePatternNode(s: State, env: Env): Step {
    if s.customerProfile.None? then Raise(KeyError("customer_profile"))
    else if s.customerProfile.value.customerId.None? then Raise(KeyError("customer_id"))
    else
      var patterns := AnalyzePurchasePatterns(env.source, s.customerProfile.value.customerId.value, env.patternReply);
      if patterns.error.Some? then Raise(patterns.error.value)
      else Continue(s.(purchasePatterns := Some(patterns)))
  }

  function ProductAffinityNode(s: State, env: Env): Step {
    if s.purchasePatterns.None? then Raise(KeyError("purchase_patterns"))
    else if s.purchasePatterns.value.frequentProducts.None? then Raise(KeyError("frequent_products"))
    else
      var related := SuggestRelatedProducts(s.purchasePatterns.value.frequentProducts.value, env.affinityReply);
      Continue(s.(productAffinity := Some(related)))
  }

  /** Passes the profile's recent purchases, or none when the key is absent. */
  function OpportunityScoringNode(s: State, env: Env): Step {
    if s.purchasePatterns.None? then Raise(KeyError("purchase_patterns"))
    else if s.purchasePatterns.value.missingProducts.None? then Raise(KeyError("missing_products"))
    else if s.productAffinity.None? then Raise(KeyError("product_affinity"))
    else if s.customerProfile.None? then Raise(KeyError("customer_profile"))
    else
      var scored := ScoreOpportunities(
        s.purchasePatterns.value.missingProducts.value,
        s.productAffinity.value,
        Some(s.customerProfile.value.recentPurchases.GetOr([])),
        env.scoringReply);
      Continue(s.(scoredOpportunities := Some(scored)))
  }

  function RecommendationReportNode(s: State, env: Env): Step {
    if s.customerProfile.None? then Raise(KeyError("customer_profile"))
    else if s.purchasePatterns.None? then Raise(KeyError("purchase_patterns"))
    else if s.scoredOpportunities.None? then Raise(KeyError("scored_opportunities"))
    else
      var report := GenerateResearchReport(
        s.customerProfile.value, s.purchasePatterns.value, s.scoredOpportunities.value, env.reportReply);
      Continue(s.(researchReport := Some(report)))
  }

  /** The graph's nodes: the function registered for each stage. */
  function Node(stage: Stage): (State, Env) -> Step
    requires stage != End
  {
    match stage
    case CustomerContext => CustomerContextNode
    case PurchasePattern => PurchasePatternNode
    case ProductAffinity => ProductAffinityNode
    case OpportunityScoring => OpportunityScoringNode
    case RecommendationReport => RecommendationReportNode
  }

  /** Runs one stage's node. A node that does not raise writes its own field
      and leaves every other field as it was. */
  function RunNode(stage: Stage, s: State, env: Env): (r: Step)
    requires stage != End
    ensures r.Continue? ==> SameExcept(s, r.state, Writes(stage)) && Has(r.state, Writes(stage))
  {
    Node(stage)(s, env)
  }

  /** A run's outcome: the final state, or the message raised and the stage
      whose node raised it. */
  datatype Run = Finished(state: State) | Aborted(message: string, at: Stage)

  /** Runs the graph from `stage`: each node in turn until one raises or the
      end is reached. */
  function RunFrom(stage: Stage, s: State, env: Env): Run
    decreases Remaining(stage)
  {
    if stage == End then Finished(s)
    else
      match RunNode(stage, s, env)
      case Raise(m) => Aborted(m, stage)
      case Continue(t) => RunFrom(Next(stage), t, env)
  }

  /** A run that stops does so at a stage of the chain from where it started,
      with a message that stage's node raises on some state. */
  lemma {:induction false} RunStopsWithinChain(stage: Stage, s: State, env: Env)
    ensures var r := RunFrom(stage, s, env);
      r.Aborted? ==> r.at != End && r.at in Chain(stage) && exists t :: RunNode(r.at, t, env) == Raise(r.message)
    decreases Remaining(stage)
  {
    if stage != End {
      assert Chain(stage) == [stage] + Chain(Next(stage));
      match RunNode(stage, s, env)
      case Raise(m) =>
        assert RunNode(stage, s, env) == Raise(m);
      case Continue(t) =>
        RunStopsWithinChain(Next(stage), t, env);
    }
  }

  /** A run that finishes keeps the identifier and every field already
      written, and has written the field of every stage of its chain. */
  lemma {:induction false} RunFromWritesChain(stage: Stage, s: State, env: Env)
    ensures var r := RunFrom(stage, s, env);
      r.Finished? ==>
        && r.state.customerId == s.customerId
        && (forall f :: Has(s, f) ==> Has(r.state, f))
        && (forall st :: st in Chain(stage) && st != End ==> Has(r.state, Writes(st)))
    decreases Remaining(stage)
  {
    if stage != End {
      assert Chain(stage) == [stage] + Chain(Next(stage));
      match RunNode(stage, s, env)
      case Raise(m) =>
      case Continue(t) =>
        WritingKeepsFields(s, t, Writes(stage));
        RunFromWritesChain(Next(stage), t, env);
    }
  }

  /** A state that differs from `s` only in `f`, and has `f`, has every
      field `s` has. */
  lemma WritingKeepsFields(s: State, t: State, f: Field)
    requires SameExcept(s, t, f) && Has(t, f)
    ensures forall g :: Has(s, g) ==> Has(t, g)
  {
    forall g | Has(s, g) ensures Has(t, g) {
      if g != f {
        match g
        case ProfileField =>
        case PatternsField =>
        case AffinityField =>
        case ScoredField =>
        case ReportField =>
      }
    }
  }

  /** The endpoint's answer. */
  datatype Response =
    | ErrorResponse(error: string)
    | ReportResponse(researchReport: string, recommendations: seq<Opportunity>)

  const PipelineFailed: string := "Pipeline failed: "

  /** The response assembled from a finished state: the profile's error, else
      the patterns' error, else the report and the scored opportunities. */
  function Respond(s: State): Response {
    if s.customerProfile.None? then ErrorResponse(PipelineFailed + KeyError("customer_profile"))
    else if s.customerProfile.value.error.Some? then ErrorResponse(s.customerProfile.value.error.value)
    else if s.purchasePatterns.None? then ErrorResponse(PipelineFailed + KeyError("purchase_patterns"))
    else if s.purchasePatterns.value.error.Some? then ErrorResponse(s.purchasePatterns.value.error.value)
    else if s.researchReport.None? then ErrorResponse(PipelineFailed + KeyError("research_report"))
    else if s.scoredOpportunities.None? then ErrorResponse(PipelineFailed + KeyError("scored_opportunities"))
    else ReportResponse(s.researchReport.value, s.scoredOpportunities.value)
  }

  /** The response to a finished state: the report and the scored
      opportunities exactly when profile, patterns, report and scores are all
      present and neither profile nor patterns carries `error`; otherwise the
      profile's error first, then the patterns' error. */
  lemma RespondCases(s: State)
    ensures var r := Respond(s);
      && (r.ReportResponse? <==>
            && s.customerProfile.Some? && s.customerProfile.value.error.None?
            && s.purchasePatterns.Some? && s.purchasePatterns.value.error.None?
            && s.researchReport.Some? && s.scoredOpportunities.Some?)
      && (r.ReportResponse? ==>
            r.researchReport == s.researchReport.value && r.recommendations == s.scoredOpportunities.value)
      && (s.customerProfile.Some? && s.customerProfile.value.error.Some? ==>
            r == ErrorResponse(s.customerProfile.value.error.value))
      && (s.customerProfile.Some? && s.customerProfile.value.error.None?
          && s.purchasePatterns.Some? && s.purchasePatterns.value.error.Some? ==>
            r == ErrorResponse(s.purchasePatterns.value.error.value))
  {
  }

  /** `recommendation`: run the graph from the customer-context stage; a
      raising node becomes the "Pipeline failed" error. */
  function Recommendation(customerId: string, env: Env): Response {
    match RunFrom(CustomerContext, Initial(customerId), env)
    case Aborted(m, _) => ErrorResponse(PipelineFailed + m)
    case Finished(s) => Respond(s)
  }

  /** The state at the end of a run that got past the purchase-pattern
      stage: affinity from the frequent products, scoring against the
      profile's purchases, and the report. */
  function Completed(customerId: string, profile: Profile, patterns: Patterns, env: Env): State
    requires patterns.frequentProducts.Some? && patterns.missingProducts.Some?
  {
    var affinity := SuggestRelatedProducts(patterns.frequentProducts.value, env.affinityReply);
    var scored := ScoreOpportunities(patterns.missingProducts.value, affinity,
                                     Some(profile.recentPurchases.GetOr([])), env.scoringReply);
    var report := GenerateResearchReport(profile, patterns, scored, env.reportReply);
    State(customerId, Some(profile), Some(patterns), Some(affinity), Some(scored), Some(report))
  }

  /** A reference for the run, written as straight-line code: the profile;
      a stop without an identifier; the patterns; a stop on their error;
      then the last three stages. */
  function DirectRun(customerId: string, env: Env): Run {
    var profile := GetCustomerProfile(env.source, customerId, env.profileReply);
    if profile.customerId.None? then Aborted(KeyError("customer_id"), PurchasePattern)
    else
      var patterns := AnalyzePurchasePatterns(env.source, profile.customerId.value, env.patternReply);
      if patterns.error.Some? then Aborted(patterns.error.value, PurchasePattern)
      else Finished(Completed(customerId, profile, patterns, env))
  }

  /** The customer-context stage always continues, with the profile. */
  lemma ContextStep(customerId: string, env: Env)
    ensures RunFrom(CustomerContext, Initial(customerId), env)
         == RunFrom(PurchasePattern,
                    Initial(customerId).(customerProfile := Some(GetCustomerProfile(env.source, customerId, env.profileReply))),
                    env)
  {
  }

  /** The purchase-pattern stage raises the `KeyError` for a profile
      without identifier. */
  lemma PatternStepWithoutId(s: State, env: Env)
    requires s.customerProfile.Some? && s.customerProfile.value.customerId.None?
    ensures RunFrom(PurchasePattern, s, env) == Aborted(KeyError("customer_id"), PurchasePattern)
  {
  }

  /** The purchase-pattern stage raises the error the patterns carry. */
  lemma PatternStepWithError(s: State, env: Env)
    requires s.customerProfile.Some? && s.customerProfile.value.customerId.Some?
    requires AnalyzePurchasePatterns(env.source, s.customerProfile.value.customerId.value, env.patternReply).error.Some?
    ensures RunFrom(PurchasePattern, s, env)
         == Aborted(AnalyzePurchasePatterns(env.source, s.customerProfile.value.customerId.value, env.patternReply).error.value,
                    PurchasePattern)
  {
  }

  /** Error-free patterns are written and the run continues. */
  lemma PatternStepContinues(s: State, env: Env)
    requires s.customerProfile.Some? && s.customerProfile.value.customerId.Some?
    requires AnalyzePurchasePatterns(env.source, s.customerProfile.value.customerId.value, env.patternReply).error.None?
    ensures var patterns := AnalyzePurchasePatterns(env.source, s.customerProfile.value.customerId.value, env.patternReply);
      RunFrom(PurchasePattern, s, env) == RunFrom(ProductAffinity, s.(purchasePatterns := Some(patterns)), env)
  {
  }

  /** With the frequent products present, the affinity stage continues. */
  lemma AffinityStep(s: State, env: Env)
    requires s.purchasePatterns.Some? && s.purchasePatterns.value.frequentProducts.Some?
    ensures RunFrom(ProductAffinity, s, env)
         == RunFrom(OpportunityScoring,
                    s.(productAffinity := Some(SuggestRelatedProducts(s.purchasePatterns.value.frequentProducts.value,
                                                                      env.affinityReply))),
                    env)
  {
  }

  /** With the missing products, affinity and a profile present, the scoring
      stage continues. */
  lemma ScoringStep(s: State, env: Env)
    requires s.purchasePatterns.Some? && s.purchasePatterns.value.missingProducts.Some?
    requires s.productAffinity.Some? && s.customerProfile.Some?
    ensures RunFrom(OpportunityScoring, s, env)
         == RunFrom(RecommendationReport,
                    s.(scoredOpportunities := Some(ScoreOpportunities(
                         s.purchasePatterns.value.missingProducts.value, s.productAffinity.value,
                         Some(s.customerProfile.value.recentPurchases.GetOr([])), env.scoringReply))),
                    env)
  {
  }

  /** With a profile, patterns and scored opportunities present, the report
      stage writes the report and the run finishes. */
  lemma ReportStep(s: State, env: Env)
    requires s.customerProfile.Some? && s.purchasePatterns.Some? && s.scoredOpportunities.Some?
    ensures RunFrom(RecommendationReport, s, env)
         == Finished(s.(researchReport := Some(GenerateResearchReport(
              s.customerProfile.value, s.purchasePatterns.value, s.scoredOpportunities.value, env.reportReply))))
  {
  }

  /** Given a profile and patterns holding both product lists, the last three
      stages each continue, writing affinity, the scored opportunities and
      the report. */
  lemma TailSteps(customerId: string, profile: Profile, patterns: Patterns, env: Env)
    requires patterns.frequentProducts.Some? && patterns.missingProducts.Some?
    ensures RunFrom(ProductAffinity, State(customerId, Some(profile), Some(patterns), None, None, None), env)
         == Finished(Completed(customerId, profile, patterns, env))
  {
    var s2 := State(customerId, Some(profile), Some(patterns), None, None, None);
    var affinity := SuggestRelatedProducts(patterns.frequentProducts.value, env.affinityReply);
    var s3 := s2.(productAffinity := Some(affinity));
    var scored := ScoreOpportunities(patterns.missingProducts.value, affinity,
                                     Some(profile.recentPurchases.GetOr([])), env.scoringReply);
    var s4 := s3.(scoredOpportunities := Some(scored));
    AffinityStep(s2, env);
    ScoringStep(s3, env);
    ReportStep(s4, env);
  }

  /** A profile without identifier stops the run in the purchase-pattern
      stage with the `KeyError`. */
  lemma RunWithoutId(customerId: string, env: Env)
    requires GetCustomerProfile(env.source, customerId, env.profileReply).customerId.None?
    ensures RunFrom(CustomerContext, Initial(customerId), env) == Aborted(KeyError("customer_id"), PurchasePattern)
  {
    var profile := GetCustomerProfile(env.source, customerId, env.profileReply);
    ContextStep(customerId, env);
    PatternStepWithoutId(Initial(customerId).(customerProfile := Some(profile)), env);
  }

  /** Patterns carrying `error` stop the run in the purchase-pattern stage
      with that error. */
  lemma RunWithPatternError(customerId: string, env: Env)
    requires var profile := GetCustomerProfile(env.source, customerId, env.profileReply);
      && profile.customerId.Some?
      && AnalyzePurchasePatterns(env.source, profile.customerId.value, env.patternReply).error.Some?
    ensures var profile := GetCustomerProfile(env.source, customerId, env.profileReply);
      var patterns := AnalyzePurchasePatterns(env.source, profile.customerId.value, env.patternReply);
      RunFrom(CustomerContext, Initial(customerId), env) == Aborted(patterns.error.value, PurchasePattern)
  {
    var profile := GetCustomerProfile(env.source, customerId, env.profileReply);
    ContextStep(customerId, env);
    PatternStepWithError(Initial(customerId).(customerProfile := Some(profile)), env);
  }

  /** A profile with identifier and error-free patterns run all five stages,
      each writing its field. */
  lemma RunToEnd(customerId: string, env: Env)
    requires var profile := GetCustomerProfile(env.source, customerId, env.profileReply);
      && profile.customerId.Some?
      && AnalyzePurchasePatterns(env.source, profile.customerId.value, env.patternReply).error.None?
    ensures var profile := GetCustomerProfile(env.source, customerId, env.profileReply);
      var patterns := AnalyzePurchasePatterns(env.source, profile.customerId.value, env.patternReply);
      RunFrom(CustomerContext, Initial(customerId), env) == Finished(Completed(customerId, profile, patterns, env))
  {
    var profile := GetCustomerProfile(env.source, customerId, env.profileReply);
    var s1 := Initial(customerId).(customerProfile := Some(profile));
    var patterns := AnalyzePurchasePatterns(env.source, profile.customerId.value, env.patternReply);
    ContextStep(customerId, env);
    PatternStepContinues(s1, env);
    TailSteps(customerId, profile, patterns, env);
  }

  /** The stage machine computes exactly the straight-line run. */
  lemma RunMatchesDirectRun(customerId: string, env: Env)
    ensures RunFrom(CustomerContext, Initial(customerId), env) == DirectRun(customerId, env)
  {
    var profile := GetCustomerProfile(env.source, customerId, env.profileReply);
    if profile.customerId.None? {
      RunWithoutId(customerId, env);
    } else if AnalyzePurchasePatterns(env.source, profile.customerId.value, env.patternReply).error.Some? {
      RunWithPatternError(customerId, env);
    } else {
      RunToEnd(customerId, env);
    }
  }

  /** The chain from the customer-context stage is the five stages in
      order. */
  lemma ChainFromStart()
    ensures Chain(CustomerContext)
         == [CustomerContext, PurchasePattern, ProductAffinity, OpportunityScoring, RecommendationReport]
  {
    assert Chain(RecommendationReport) == [RecommendationReport];
    assert Chain(OpportunityScoring) == [OpportunityScoring, RecommendationReport];
  }

  /** A run stops early only at the purchase-pattern stage: affinity,
      scoring and report run either all or not at all. */
  lemma OnlyPatternStageAborts(customerId: string, env: Env)
    ensures var r := RunFrom(CustomerContext, Initial(customerId), env);
      r.Aborted? ==> r.at == PurchasePattern
  {
    var profile := GetCustomerProfile(env.source, customerId, env.profileReply);
    if profile.customerId.None? {
      RunWithoutId(customerId, env);
    } else if AnalyzePurchasePatterns(env.source, profile.customerId.value, env.patternReply).error.Some? {
      RunWithPatternError(customerId, env);
    } else {
      RunToEnd(customerId, env);
    }
  }

  /** Patterns carrying `error` stop the run at the purchase-pattern stage
      with "Pipeline failed: " and that error. */
  lemma PatternErrorStopsPipeline(customerId: string, env: Env)
    requires var profile := GetCustomerProfile(env.source, customerId, env.profileReply);
      && profile.customerId.Some?
      && AnalyzePurchasePatterns(env.source, profile.customerId.value, env.patternReply).error.Some?
    ensures var profile := GetCustomerProfile(env.source, customerId, env.profileReply);
      var e := AnalyzePurchasePatterns(env.source, profile.customerId.value, env.patternReply).error.value;
      Recommendation(customerId, env) == ErrorResponse(PipelineFailed + e)
  {
    RunWithPatternError(customerId, env);
  }

  /** A profile without `customer_id`, such as any error sentinel, stops the
      run at the purchase-pattern stage before any analysis, with the
      `KeyError` and not the profile's own error text. */
  lemma ProfileWithoutIdStopsPipeline(customerId: string, env: Env)
    requires GetCustomerProfile(env.source, customerId, env.profileReply).customerId.None?
    ensures Recommendation(customerId, env) == ErrorResponse("Pipeline failed: 'customer_id'")
    ensures RunFrom(CustomerContext, Initial(customerId), env).Aborted?
    ensures RunFrom(CustomerContext, Initial(customerId), env).at == PurchasePattern
  {
    RunWithoutId(customerId, env);
  }

  /** When the profile has an identifier and the patterns no error, all five
      stages run; affinity is computed from the frequent products, scoring
      from the missing products, that affinity list and the profile's recent
      purchases (none when absent), and the response is the profile's error
      if it carries one, else the report and the scored opportunities. */
  lemma CompletedRun(customerId: string, env: Env)
    requires var profile := GetCustomerProfile(env.source, customerId, env.profileReply);
      && profile.customerId.Some?
      && AnalyzePurchasePatterns(env.source, profile.customerId.value, env.patternReply).error.None?
    ensures var profile := GetCustomerProfile(env.source, customerId, env.profileReply);
      var patterns := AnalyzePurchasePatterns(env.source, profile.customerId.value, env.patternReply);
      var affinity := SuggestRelatedProducts(patterns.frequentProducts.value, env.affinityReply);
      var scored := ScoreOpportunities(patterns.missingProducts.value, affinity,
                                       Some(profile.recentPurchases.GetOr([])), env.scoringReply);
      var report := GenerateResearchReport(profile, patterns, scored, env.reportReply);
      && RunFrom(CustomerContext, Initial(customerId), env)
         == Finished(State(customerId, Some(profile), Some(patterns), Some(affinity), Some(scored), Some(report)))
      && Recommendation(customerId, env)
         == (if profile.error.Some? then ErrorResponse(profile.error.value) else ReportResponse(report, scored))
  {
    RunToEnd(customerId, env);
  }

  /** The endpoint's answer in every case: the `KeyError` for a profile
      without identifier, the patterns' error, the profile's own error, or
      the report with the scores computed from the patterns, the affinity
      suggestions and the profile's purchases. */
  lemma RecommendationCases(customerId: string, env: Env)
    ensures var profile := GetCustomerProfile(env.source, customerId, env.profileReply);
      var r := Recommendation(customerId, env);
      if profile.customerId.None? then r == ErrorResponse(PipelineFailed + KeyError("customer_id"))
      else
        var patterns := AnalyzePurchasePatterns(env.source, profile.customerId.value, env.patternReply);
        if patterns.error.Some? then r == ErrorResponse(PipelineFailed + patterns.error.value)
        else if profile.error.Some? then r == ErrorResponse(profile.error.value)
        else
          && r.ReportResponse?
          && r.recommendations
             == ScoreOpportunities(patterns.missingProducts.value,
                                   SuggestRelatedProducts(patterns.frequentProducts.value, env.affinityReply),
                                   Some(profile.recentPurchases.GetOr([])), env.scoringReply)
  {
    var profile := GetCustomerProfile(env.source, customerId, env.profileReply);
    if profile.customerId.None? {
      RunWithoutId(customerId, env);
    } else if AnalyzePurchasePatterns(env.source, profile.customerId.value, env.patternReply).error.Some? {
      RunWithPatternError(customerId, env);
    } else {
      CompletedRun(customerId, env);
    }
  }

  /** The safety property end to end: a successful response never
      recommends a product listed among the profile's recent purchases. */
  lemma NeverRecommendsPurchased(customerId: string, env: Env)
    ensures var response := Recommendation(customerId, env);
      var profile := GetCustomerProfile(env.source, customerId, env.profileReply);
      response.ReportResponse? ==>
        forall o :: o in response.recommendations ==> o.product !in profile.recentPurchases.GetOr([])
  {
    RunMatchesDirectRun(customerId, env);
  }
}

=== FILE: report_agent.dfy ===
/** The recommendation-report stage: refuses sentinel inputs, assembles the
    text the report prompt is filled with, and returns the generative
    service's report, trimmed. The report itself is the service's; only the
    assembly is modelled. */
module ReportAgent {
  import opened Wrappers
  import opened Text
  import opened ContextAgent
  import opened PatternAgent
  import opened ScoringAgent

  const MissingDataReport: string := "Error: Unable to generate report due to missing data"
  const NoRecommendations: string := "No recommendations available " + "due to lack of scored opportunities."
  const NoRationale: string := "No rationale provided"
  const FrequentPrefix: string := "Frequent Purchases: "

  /** Line `i` (0-based) of the recommendations text: its 1-based number, the
      product and, in parentheses, the rationale or the literal default. */
  function RecommendationLine(i: nat, o: Opportunity): string {
    NatToString(i + 1) + ". " + o.product + " (" + o.rationale.GetOr(NoRationale) + ")"
  }

  /** One line per opportunity, in input order. */
  function RecommendationLines(opps: seq<Opportunity>): (lines: seq<string>)
    ensures |lines| == |opps|
  {
    seq(|opps|, i requires 0 <= i < |opps| => RecommendationLine(i, opps[i]))
  }

  /** The numbered lines joined by newlines, or the literal text for no
      opportunities. The literal text appears exactly when there are none:
      a numbered list starts with a digit. */
  function RecommendationsText(opps: seq<Opportunity>): (t: string)
    ensures t == NoRecommendations <==> opps == []
  {
    if opps == [] then NoRecommendations
    else
      var lines := RecommendationLines(opps);
      assert lines[0] == NatToString(1) + ". " + opps[0].product + " (" + opps[0].rationale.GetOr(NoRationale) + ")";
      assert Join("\n", lines)[0] == lines[0][0];
      assert '0' <= lines[0][0] <= '9';
      assert NoRecommendations[0] == 'N';
      Join("\n", lines)
  }

  /** The values the report prompt is filled with. */
  datatype ReportPrompt = ReportPrompt(
    customerId: string,
    industry: string,
    revenue: real,
    recentPurchases: string,
    patternSummary: string,
    missingProducts: string,
    recommendations: string)

  /** The prompt values, with the literal defaults for absent keys. */
  function AssemblePrompt(profile: Profile, patterns: Patterns, opps: seq<Opportunity>): ReportPrompt {
    ReportPrompt(
      profile.customerId.GetOr(UnknownText),
      profile.industry.GetOr(UnknownText),
      profile.revenue.GetOr(0.0),
      Join(", ", profile.recentPurchases.GetOr([])),
      FrequentPrefix + Join(", ", patterns.frequentProducts.GetOr([])),
      Join(", ", patterns.missingProducts.GetOr([])),
      RecommendationsText(opps))
  }

  /** `generate_research_report`: the literal error text when the profile or
      the patterns carry `error`; otherwise the service's reply trimmed of
      surrounding whitespace, or the failure text when the call raised. */
  function GenerateResearchReport(profile: Profile, patterns: Patterns, opps: seq<Opportunity>,
                                  reply: Reply<string>): (r: string)
    ensures profile.error.Some? || patterns.error.Some? ==> r == MissingDataReport
    ensures profile.error.None? && patterns.error.None? && reply.Raised? ==>
              r == "Failed to generate report: " + reply.message
    ensures profile.error.None? && patterns.error.None? && reply.Returned? ==>
              (r == [] || (!IsSpace(r[0]) && !IsSpace(r[|r| - 1])))
              && exists a :: 0 <= a && a + |r| <= |reply.value| && r == reply.value[a..a + |r|]
                   && SpaceBetween(reply.value, 0, a) && SpaceBetween(reply.value, a + |r|, |reply.value|)
  {
    if profile.error.Some? || patterns.error.Some? then MissingDataReport
    else
      match reply
      case Raised(m) => "Failed to generate report: " + m
      case Returned(text) => Strip(text)
  }

  /** A sentinel input yields the error text whatever the opportunities and
      whatever the service would reply: the service is not asked. */
  lemma SentinelReportIgnoresService(profile: Profile, patterns: Patterns,
                                     opps1: seq<Opportunity>, opps2: seq<Opportunity>,
                                     reply1: Reply<string>, reply2: Reply<string>)
    requires profile.error.Some? || patterns.error.Some?
    ensures GenerateResearchReport(profile, patterns, opps1, reply1)
         == GenerateResearchReport(profile, patterns, opps2, reply2)
         == MissingDataReport
  {
  }

  /** Splitting the recommendations text at newlines gives back one line per
      opportunity, in order, when no product or rationale holds a newline. */
  lemma {:induction false} RecommendationsOnePerLine(opps: seq<Opportunity>)
    requires opps != []
    requires forall i :: 0 <= i < |opps| ==>
               '\n' !in opps[i].product && '\n' !in opps[i].rationale.GetOr(NoRationale)
    ensures SplitOn(RecommendationsText(opps), '\n') == RecommendationLines(opps)
  {
    var lines := RecommendationLines(opps);
    forall i | 0 <= i < |lines| ensures '\n' !in lines[i] {
      var o := opps[i];
      var num := NatToString(i + 1);
      assert '\n' !in num;
      assert lines[i] == num + ". " + o.product + " (" + o.rationale.GetOr(NoRationale) + ")";
    }
    SplitJoin(lines, '\n');
  }

  /** The maximal prefix of decimal digits. */
  function LeadingDigits(s: string): (d: string)
    ensures |d| <= |s| && IsDigits(d) && d == s[..|d|]
    decreases |s|
  {
    if s != [] && '0' <= s[0] <= '9' then
      var rest := LeadingDigits(s[1..]);
      assert s[..|rest| + 1] == [s[0]] + s[1..][..|rest|];
      [s[0]] + rest
    else []
  }

  /** The digits before the first non-digit of `d + t` are `d` when `t` does
      not start with a digit. */
  lemma {:induction false} LeadingDigitsOfNumber(d: string, t: string)
    requires IsDigits(d) && t != [] && !('0' <= t[0] <= '9')
    ensures LeadingDigits(d + t) == d
    decreases |d|
  {
    if d != [] {
      assert (d + t)[1..] == d[1..] + t;
      LeadingDigitsOfNumber(d[1..], t);
    } else {
      assert d + t == t;
    }
  }

  /** Line `i` starts with the number `i + 1`: reading its leading digits back
      gives the 1-based position. */
  lemma LineNumberIsPosition(opps: seq<Opportunity>, i: nat)
    requires i < |opps|
    ensures ParseDecimal(LeadingDigits(RecommendationLines(opps)[i])) == i + 1
  {
    var o := opps[i];
    var num := NatToString(i + 1);
    var t := ". " + o.product + " (" + o.rationale.GetOr(NoRationale) + ")";
    assert RecommendationLines(opps)[i] == num + t;
    LeadingDigitsOfNumber(num, t);
    ParseNatToString(i + 1);
  }

  /** The items of a comma-joined list, with ", " between them. */
  function SpacedAfterFirst(xs: seq<string>): (ys: seq<string>)
    requires xs != []
    ensures |ys| == |xs| && ys[0] == xs[0]
    ensures forall i :: 1 <= i < |xs| ==> ys[i] == " " + xs[i]
  {
    seq(|xs|, i requires 0 <= i < |xs| => if i == 0 then xs[0] else " " + xs[i])
  }

  /** Joining with ", " is joining with "," after prefixing every item but the
      first with a space. */
  lemma {:induction false} CommaSpaceJoin(xs: seq<string>)
    requires xs != []
    ensures Join(", ", xs) == Join(",", SpacedAfterFirst(xs))
    decreases |xs|
  {
    if |xs| > 1 {
      var ys := SpacedAfterFirst(xs);
      var rest := SpacedAfterFirst(xs[1..]);
      CommaSpaceJoin(xs[1..]);
      assert Join(",", rest[1..]) == Join(",", ys[2..]) by {
        assert rest[1..] == ys[2..];
      }
      if |xs| > 2 {
        assert Join(",", ys[1..]) == ys[1] + "," + Join(",", ys[2..]);
        assert Join(",", rest) == rest[0] + "," + Join(",", rest[1..]);
      } else {
        assert ys[1..] == [ys[1]];
        assert rest == [xs[1]];
      }
    }
  }

  /** The joined missing-products text splits back at commas into the items,
      each after the first preceded by the space of the separator, when no
      item holds a comma. */
  lemma MissingProductsTextSplits(profile: Profile, patterns: Patterns, opps: seq<Opportunity>)
    requires patterns.missingProducts.Some? && patterns.missingProducts.value != []
    requires forall i :: 0 <= i < |patterns.missingProducts.value| ==> ',' !in patterns.missingProducts.value[i]
    ensures SplitOn(AssemblePrompt(profile, patterns, opps).missingProducts, ',')
         == SpacedAfterFirst(patterns.missingProducts.value)
  {
    CommaListSplits(patterns.missingProducts.value);
  }

  /** A non-empty list of comma-free items joined with ", " splits back at
      commas into the items, each after the first preceded by a space. */
  lemma CommaListSplits(xs: seq<string>)
    requires xs != [] && forall i :: 0 <= i < |xs| ==> ',' !in xs[i]
    ensures SplitOn(Join(", ", xs), ',') == SpacedAfterFirst(xs)
  {
    var ys := SpacedAfterFirst(xs);
    CommaSpaceJoin(xs);
    forall i | 0 <= i < |ys| ensures ',' !in ys[i] {
      if i > 0 {
        assert ys[i] == " " + xs[i];
      }
    }
    SplitJoin(ys, ',');
  }

  /** The pattern summary is "Frequent Purchases: " followed by the frequent
      products joined with ", ": nothing after the prefix when the key is
      absent or the list empty, and otherwise text that splits back at commas
      into the products when none holds a comma. */
  lemma PatternSummaryShape(profile: Profile, patterns: Patterns, opps: seq<Opportunity>)
    ensures var summary := AssemblePrompt(profile, patterns, opps).patternSummary;
      && |FrequentPrefix| <= |summary| && summary[..|FrequentPrefix|] == FrequentPrefix
      && (patterns.frequentProducts.GetOr([]) == [] ==> summary == FrequentPrefix)
    ensures var summary := AssemblePrompt(profile, patterns, opps).patternSummary;
      var xs := patterns.frequentProducts.GetOr([]);
      xs != [] && (forall i :: 0 <= i < |xs| ==> ',' !in xs[i]) ==>
        SplitOn(summary[|FrequentPrefix|..], ',') == SpacedAfterFirst(xs)
  {
    var xs := patterns.frequentProducts.GetOr([]);
    var summary := AssemblePrompt(profile, patterns, opps).patternSummary;
    assert summary[|FrequentPrefix|..] == Join(", ", xs);
    if xs != [] && (forall i :: 0 <= i < |xs| ==> ',' !in xs[i]) {
      CommaListSplits(xs);
    }
  }

  /** No scored opportunities put the literal text in the prompt. */
  lemma NoOpportunitiesPrompt(profile: Profile, patterns: Patterns)
    ensures AssemblePrompt(profile, patterns, []).recommendations == NoRecommendations
  {
  }

  /** An opportunity with a rationale is listed as its 1-based number, the
      product and the rationale in parentheses. */
  lemma RationaleLine(opps: seq<Opportunity>, i: nat)
    requires i < |opps| && opps[i].rationale.Some?
    ensures RecommendationLines(opps)[i]
         == NatToString(i + 1) + ". " + opps[i].product + " (" + opps[i].rationale.value + ")"
  {
  }

  /** Absent profile keys are filled with the literal defaults: "Unknown" for
      the identifier and the industry, 0.0 for the revenue, and nothing for
      the purchases; present values are passed on, a purchase list as text
      that splits back at commas into its items when none holds a comma. */
  lemma PromptDefaults(profile: Profile, patterns: Patterns, opps: seq<Opportunity>)
    ensures var p := AssemblePrompt(profile, patterns, opps);
      && p.customerId == (if profile.customerId.Some? then profile.customerId.value else "Unknown")
      && p.industry == (if profile.industry.Some? then profile.industry.value else "Unknown")
      && p.revenue == (if profile.revenue.Some? then profile.revenue.value else 0.0)
      && (profile.recentPurchases.GetOr([]) == [] ==> p.recentPurchases == [])
      && (patterns.missingProducts.GetOr([]) == [] ==> p.missingProducts == [])
    ensures var p := AssemblePrompt(profile, patterns, opps);
      var xs := profile.recentPurchases.GetOr([]);
      xs != [] && (forall i :: 0 <= i < |xs| ==> ',' !in xs[i]) ==>
        SplitOn(p.recentPurchases, ',') == SpacedAfterFirst(xs)
  {
    var xs := profile.recentPurchases.GetOr([]);
    if xs != [] && (forall i :: 0 <= i < |xs| ==> ',' !in xs[i]) {
      CommaListSplits(xs);
    }
  }

  /** An opportunity without a rationale is listed with the literal default. */
  lemma MissingRationaleDefault(opps: seq<Opportunity>, i: nat)
    requires i < |opps| && opps[i].rationale.None?
    ensures RecommendationLines(opps)[i]
         == NatToString(i + 1) + ". " + opps[i].product + " (No rationale provided)"
  {
  }
}

=== FILE: scoring_agent.dfy ===
/** The opportunity-scoring stage: scores every candidate product (missing
    from the industry pattern or suggested by affinity, and not yet bought).
    A fixed-score list is the fallback; a well-shaped reply of the generative
    service replaces it, minus the products already bought. */
module ScoringAgent {
  import opened Wrappers
  import opened Seqs

  /** One scored opportunity. `rationale` is `None` when the key is absent,
      which only a caller outside this stage can produce. */
  datatype Opportunity = Opportunity(product: string, score: real, rationale: Option<string>)

  /** One element of a parsed reply list: a dictionary with any of the three
      keys, or some other value. */
  datatype ItemJson =
    | ItemNotObject
    | ItemObject(product: Option<string>, score: Option<real>, rationale: Option<string>)

  /** What the service's reply text parsed to. */
  datatype ScoringJson =
    | ScoringUnparsable
    | ScoringNotList
    | ScoringList(items: seq<ItemJson>)

  const CrossSellScore: real := 0.8
  const UpsellScore: real := 0.6
  const CrossSellRationale: string := "Cross-sell opportunity based on industry patterns"
  const UpsellRationale: string := "Upsell opportunity based on product affinity"

  /** The products worth scoring: those missing or suggested, minus those
      purchased, each once (`list(set(missing + affinity) - set(purchased))`;
      the order of that list is unspecified, so only its element set is
      promised). */
  function Candidates(missing: seq<string>, affinity: seq<string>, purchased: seq<string>): (c: seq<string>)
    ensures Distinct(c)
    ensures forall x :: x in c <==> (x in missing || x in affinity) && x !in purchased
  {
    Dedup(Without(missing + affinity, purchased))
  }

  /** The fixed score of a candidate: cross-sell when it is missing from the
      industry pattern (tested first, so a product in both lists is
      cross-sell), upsell otherwise. */
  function StaticScore(product: string, missing: seq<string>): (o: Opportunity)
    ensures o.product == product
    ensures product in missing ==> o.score == CrossSellScore && o.rationale == Some(CrossSellRationale)
    ensures product !in missing ==> o.score == UpsellScore && o.rationale == Some(UpsellRationale)
  {
    if product in missing then Opportunity(product, CrossSellScore, Some(CrossSellRationale))
    else Opportunity(product, UpsellScore, Some(UpsellRationale))
  }

  /** The fallback: one fixed-score entry per candidate, in candidate order. */
  function Fallback(candidates: seq<string>, missing: seq<string>): (f: seq<Opportunity>)
    ensures |f| == |candidates|
    ensures forall i :: 0 <= i < |f| ==> f[i] == StaticScore(candidates[i], missing)
  {
    seq(|candidates|, i requires 0 <= i < |candidates| => StaticScore(candidates[i], missing))
  }

  /** An item with all three keys. */
  predicate WellShaped(item: ItemJson) {
    item.ItemObject? && item.product.Some? && item.score.Some? && item.rationale.Some?
  }

  /** The reply is taken exactly when it is a list of dictionaries that all
      hold `product`, `score` and `rationale`. */
  predicate Valid(json: ScoringJson) {
    json.ScoringList? && forall i :: 0 <= i < |json.items| ==> WellShaped(json.items[i])
  }

  function ToOpportunity(item: ItemJson): Opportunity
    requires WellShaped(item)
  {
    Opportunity(item.product.value, item.score.value, item.rationale)
  }

  /** The items of a valid reply, in order, minus those whose product was
      purchased; nothing else is dropped or changed. */
  function KeepUnpurchased(items: seq<ItemJson>, purchased: seq<string>): (r: seq<Opportunity>)
    requires forall i :: 0 <= i < |items| ==> WellShaped(items[i])
    ensures forall o :: o in r ==> o.product !in purchased
    ensures forall i :: 0 <= i < |items| && ToOpportunity(items[i]).product !in purchased ==> ToOpportunity(items[i]) in r
    ensures forall o :: o in r ==> exists i :: 0 <= i < |items| && o == ToOpportunity(items[i])
    ensures |r| <= |items|
    decreases |items|
  {
    if items == [] then []
    else
      var rest := KeepUnpurchased(items[1..], purchased);
      assert forall i :: 1 <= i < |items| ==> items[i] == items[1..][i - 1];
      if ToOpportunity(items[0]).product in purchased then rest
      else [ToOpportunity(items[0])] + rest
  }

  /** The items of a valid reply are kept in their order: the result is a
      subsequence of the converted items. */
  lemma {:induction false} KeepUnpurchasedPreservesOrder(items: seq<ItemJson>, purchased: seq<string>)
    requires forall i :: 0 <= i < |items| ==> WellShaped(items[i])
    ensures IsSubsequence(KeepUnpurchased(items, purchased),
                          seq(|items|, i requires 0 <= i < |items| => ToOpportunity(items[i])))
    decreases |items|
  {
    var all := seq(|items|, i requires 0 <= i < |items| => ToOpportunity(items[i]));
    if items != [] {
      var tail := seq(|items| - 1, i requires 0 <= i < |items| - 1 => ToOpportunity(items[1..][i]));
      assert all[1..] == tail;
      KeepUnpurchasedPreservesOrder(items[1..], purchased);
      var rest := KeepUnpurchased(items[1..], purchased);
      if ToOpportunity(items[0]).product !in purchased {
        assert ([ToOpportunity(items[0])] + rest)[1..] == rest;
      } else {
        SubsequenceDropHead(rest, all);
      }
    }
  }

  /** Filtering a concatenation filters each part: every unpurchased item is
      kept with its multiplicity and position, so a repeated item stays
      repeated. */
  lemma {:induction false} KeepUnpurchasedAppend(a: seq<ItemJson>, b: seq<ItemJson>, purchased: seq<string>)
    requires forall i :: 0 <= i < |a| ==> WellShaped(a[i])
    requires forall i :: 0 <= i < |b| ==> WellShaped(b[i])
    ensures forall i :: 0 <= i < |a + b| ==> WellShaped((a + b)[i])
    ensures KeepUnpurchased(a + b, purchased) == KeepUnpurchased(a, purchased) + KeepUnpurchased(b, purchased)
    decreases |a|
  {
    assert forall i :: 0 <= i < |a + b| ==> (a + b)[i] == if i < |a| then a[i] else b[i - |a|];
    if a == [] {
      assert a + b == b;
    } else {
      assert (a + b)[1..] == a[1..] + b;
      KeepUnpurchasedAppend(a[1..], b, purchased);
    }
  }

  /** A valid reply with no purchased product is taken unchanged. */
  lemma {:induction false} KeepUnpurchasedKeepsAll(items: seq<ItemJson>, purchased: seq<string>)
    requires forall i :: 0 <= i < |items| ==> WellShaped(items[i])
    requires forall i :: 0 <= i < |items| ==> ToOpportunity(items[i]).product !in purchased
    ensures KeepUnpurchased(items, purchased) == seq(|items|, i requires 0 <= i < |items| => ToOpportunity(items[i]))
    decreases |items|
  {
    if items != [] {
      KeepUnpurchasedKeepsAll(items[1..], purchased);
    }
  }

  /** `score_opportunities`. `purchased` is `None` when the caller passes
      nothing, which counts as no purchases. No candidates gives the empty
      list whatever the service replies; otherwise a valid reply is taken
      minus purchased products, and anything else (including a raising
      call) gives the fallback. No purchased product is ever returned. */
  function ScoreOpportunities(missing: seq<string>, affinity: seq<string>, purchased: Option<seq<string>>,
                              reply: Reply<ScoringJson>): (r: seq<Opportunity>)
    ensures forall o :: o in r ==> o.product !in purchased.GetOr([])
    ensures var c := Candidates(missing, affinity, purchased.GetOr([]));
      if c == [] then r == []
      else if reply.Returned? && Valid(reply.value) then r == KeepUnpurchased(reply.value.items, purchased.GetOr([]))
      else r == Fallback(c, missing)
  {
    var owned := purchased.GetOr([]);
    var candidates := Candidates(missing, affinity, owned);
    if candidates == [] then []
    else
      var fallback := Fallback(candidates, missing);
      match reply
      case Raised(_) => fallback
      case Returned(json) =>
        if Valid(json) then KeepUnpurchased(json.items, owned) else fallback
  }

  /** A reply list with one item lacking a key, or one item that is not a
      dictionary, is refused as a whole: the fallback is returned. */
  lemma MalformedItemGivesFallback(missing: seq<string>, affinity: seq<string>, purchased: seq<string>,
                                   items: seq<ItemJson>, k: nat)
    requires k < |items| && !WellShaped(items[k])
    requires Candidates(missing, affinity, purchased) != []
    ensures ScoreOpportunities(missing, affinity, Some(purchased), Returned(ScoringList(items)))
         == Fallback(Candidates(missing, affinity, purchased), missing)
  {
    assert !Valid(ScoringList(items));
  }

  /** The placeholders `str.format` finds in the scoring prompt template: the
      three named inputs and, because the example object in the template is
      written with single braces, a field named `"product"` (with the quotes;
      the rest of that object is read as its format specification). */
  const ScoringTemplateFields: seq<string> :=
    ["missing_products", "affinity_products", "purchased_products", "\"product\""]

  /** The placeholders the template would hold with the example object's
      braces doubled, as the pattern prompt writes them. */
  const IntendedTemplateFields: seq<string> :=
    ["missing_products", "affinity_products", "purchased_products"]

  /** The keyword arguments the scoring prompt is formatted with. */
  const ScoringPromptArguments: seq<string> :=
    ["missing_products", "affinity_products", "purchased_products"]

  /** `str.format` raises `KeyError` for the first placeholder that has no
      argument, and succeeds when there is none. */
  function MissingArgument(fields: seq<string>, args: seq<string>): (r: Option<string>)
    ensures r.None? <==> forall i :: 0 <= i < |fields| ==> fields[i] in args
    ensures r.Some? ==> r.value in fields && r.value !in args
    decreases |fields|
  {
    if fields == [] then None
    else if fields[0] !in args then Some(fields[0])
    else
      assert forall i :: 1 <= i < |fields| ==> fields[i] == fields[1..][i - 1];
      MissingArgument(fields[1..], args)
  }

  /** `score_opportunities` with the prompt built from a template with the
      given placeholders: when formatting raises, the outer handler returns
      the fallback, which is bound by then, and the service is never asked. */
  function ScoreWithTemplate(fields: seq<string>, missing: seq<string>, affinity: seq<string>,
                             purchased: Option<seq<string>>, reply: Reply<ScoringJson>): seq<Opportunity>
  {
    match MissingArgument(fields, ScoringPromptArguments)
    case Some(key) => ScoreOpportunities(missing, affinity, purchased, Raised(KeyError(key)))
    case None => ScoreOpportunities(missing, affinity, purchased, reply)
  }

  /** Formatting the written template fails on the placeholder `"product"`,
      which no argument supplies. */
  lemma WrittenTemplateMissesProduct()
    ensures MissingArgument(ScoringTemplateFields, ScoringPromptArguments) == Some("\"product\"")
  {
    assert ScoringTemplateFields[..3] == ScoringPromptArguments;
    assert ScoringTemplateFields[3] !in ScoringPromptArguments;
    assert ScoringTemplateFields[1..][1..][1..] == ["\"product\""];
  }

  /** With the braces doubled every placeholder has its argument. */
  lemma IntendedTemplateComplete()
    ensures MissingArgument(IntendedTemplateFields, ScoringPromptArguments) == None
  {
  }

  /** As written the stage behaves exactly as the intended one whose service
      call raised the `KeyError` for `"product"`. */
  lemma AsWrittenIsRaisedReply(missing: seq<string>, affinity: seq<string>, purchased: Option<seq<string>>,
                               reply: Reply<ScoringJson>)
    ensures ScoreWithTemplate(ScoringTemplateFields, missing, affinity, purchased, reply)
         == ScoreOpportunities(missing, affinity, purchased, Raised(KeyError("\"product\"")))
  {
    WrittenTemplateMissesProduct();
  }

  /** As written, formatting the scoring prompt raises `KeyError` on the
      placeholder `"product"`, so the result is the empty list or the
      fallback whatever the service would reply. */
  lemma AsWrittenNeverUsesReply(missing: seq<string>, affinity: seq<string>, purchased: Option<seq<string>>,
                                reply: Reply<ScoringJson>)
    ensures var c := Candidates(missing, affinity, purchased.GetOr([]));
      ScoreWithTemplate(ScoringTemplateFields, missing, affinity, purchased, reply)
      == if c == [] then [] else Fallback(c, missing)
  {
    WrittenTemplateMissesProduct();
  }

  /** One missing product, nothing else and no purchases: that product is
      the only candidate. */
  lemma SingleCandidate(x: string)
    ensures Candidates([x], [], []) == [x]
  {
    assert [x] + [] == [x];
    WithoutDisjoint([x], []);
    DedupOfDistinct([x]);
  }

  /** A valid one-item reply about the only candidate is returned as the
      service scored it. */
  lemma SingleValidReplyTaken(x: string, score: real, why: string)
    ensures ScoreOpportunities([x], [], Some([]), Returned(ScoringList([ItemObject(Some(x), Some(score), Some(why))])))
         == [Opportunity(x, score, Some(why))]
  {
    var item := ItemObject(Some(x), Some(score), Some(why));
    SingleCandidate(x);
    assert Valid(ScoringList([item]));
    assert KeepUnpurchased([item], []) == [ToOpportunity(item)];
  }

  /** A raising call with the one candidate X gives X's fixed cross-sell
      score. */
  lemma SingleCandidateFallback(x: string, message: string)
    ensures ScoreOpportunities([x], [], Some([]), Raised(message))
         == [Opportunity(x, CrossSellScore, Some(CrossSellRationale))]
  {
    SingleCandidate(x);
    var f := Fallback([x], [x]);
    assert x in [x];
    assert f[0] == Opportunity(x, CrossSellScore, Some(CrossSellRationale));
    assert f == [f[0]];
  }

  /** A request the as-written code answers with the fixed score: one
      missing product X and a valid reply scoring X with its own score and
      rationale, which the written template never lets through. */
  lemma AsWrittenIgnoresValidReply(x: string, score: real, why: string)
    ensures ScoreWithTemplate(ScoringTemplateFields, [x], [], Some([]),
                              Returned(ScoringList([ItemObject(Some(x), Some(score), Some(why))])))
         == [Opportunity(x, CrossSellScore, Some(CrossSellRationale))]
  {
    WrittenTemplateMissesProduct();
    SingleCandidateFallback(x, KeyError("\"product\""));
  }

  /** The same request with the intended template: the reply's score and
      rationale are returned, so the two differ whenever the reply's score
      is not 0.8. */
  lemma IntendedUsesValidReply(x: string, score: real, why: string)
    ensures ScoreWithTemplate(IntendedTemplateFields, [x], [], Some([]),
                              Returned(ScoringList([ItemObject(Some(x), Some(score), Some(why))])))
         == [Opportunity(x, score, Some(why))]
  {
    IntendedTemplateUsesReply([x], [], Some([]), Returned(ScoringList([ItemObject(Some(x), Some(score), Some(why))])));
    SingleValidReplyTaken(x, score, why);
  }

  /** With the braces doubled, the prompt formats and the scoring stage is
      `ScoreOpportunities`: a valid reply is used. */
  lemma IntendedTemplateUsesReply(missing: seq<string>, affinity: seq<string>, purchased: Option<seq<string>>,
                                  reply: Reply<ScoringJson>)
    ensures ScoreWithTemplate(IntendedTemplateFields, missing, affinity, purchased, reply)
         == ScoreOpportunities(missing, affinity, purchased, reply)
  {
    IntendedTemplateComplete();
  }

  /** The fallback scores each candidate exactly once, and each scored product
      is a candidate: a product missing from the industry pattern or
      suggested by affinity, not purchased. A product in both lists is
      scored as cross-sell. */
  lemma FallbackCoversCandidates(missing: seq<string>, affinity: seq<string>, purchased: seq<string>,
                                 reply: Reply<ScoringJson>)
    requires !(reply.Returned? && Valid(reply.value))
    ensures var r := ScoreOpportunities(missing, affinity, Some(purchased), reply);
      && (forall i, j :: 0 <= i < j < |r| ==> r[i].product != r[j].product)
      && (forall x :: (exists i :: 0 <= i < |r| && r[i].product == x) <==>
            (x in missing || x in affinity) && x !in purchased)
      && (forall i :: 0 <= i < |r| ==>
            if r[i].product in missing
            then r[i].score == CrossSellScore && r[i].rationale == Some(CrossSellRationale)
            else r[i].score == UpsellScore && r[i].rationale == Some(UpsellRationale))
  {
    var c := Candidates(missing, affinity, purchased);
    var r := ScoreOpportunities(missing, affinity, Some(purchased), reply);
    forall x | (x in missing || x in affinity) && x !in purchased
      ensures exists i :: 0 <= i < |r| && r[i].product == x
    {
      var i :| 0 <= i < |c| && c[i] == x;
      assert r[i].product == x;
    }
  }

  /** With nothing to score the result is empty, independent of the reply:
      the service need not be asked. */
  lemma NoCandidatesNoCall(missing: seq<string>, affinity: seq<string>, purchased: seq<string>,
                           reply1: Reply<ScoringJson>, reply2: Reply<ScoringJson>)
    requires forall x :: x in missing + affinity ==> x in purchased
    ensures ScoreOpportunities(missing, affinity, Some(purchased), reply1) == []
    ensures ScoreOpportunities(missing, affinity, Some(purchased), reply1)
         == ScoreOpportunities(missing, affinity, Some(purchased), reply2)
  {
    WithoutCovered(missing + affinity, purchased);
  }

  /** Passing no purchases is the same as passing an empty list. */
  lemma NoneMeansNothingPurchased(missing: seq<string>, affinity: seq<string>, reply: Reply<ScoringJson>)
    ensures ScoreOpportunities(missing, affinity, None, reply) == ScoreOpportunities(missing, affinity, Some([]), reply)
  {
  }

  /** A valid empty reply list is taken as the empty result. */
  lemma EmptyValidReply(missing: seq<string>, affinity: seq<string>, purchased: Option<seq<string>>)
    ensures ScoreOpportunities(missing, affinity, purchased, Returned(ScoringList([]))) == []
  {
  }

  /** With one missing product X, one affinity product Y and no purchases,
      an unusable reply scores X as cross-sell and Y as upsell. */
  lemma TwoCandidatesExample(x: string, y: string, json: ScoringJson)
    requires x != y && !Valid(json)
    ensures var r := ScoreOpportunities([x], [y], Some([]), Returned(json));
      && |r| == 2
      && Opportunity(x, CrossSellScore, Some(CrossSellRationale)) in r
      && Opportunity(y, UpsellScore, Some(UpsellRationale)) in r
  {
    var c := Candidates([x], [y], []);
    var r := ScoreOpportunities([x], [y], Some([]), Returned(json));
    assert x in c && y in c;
    assert |c| == 2;
    var i :| 0 <= i < 2 && c[i] == x;
    var j :| 0 <= j < 2 && c[j] == y;
    assert r[i] == StaticScore(x, [x]);
    assert r[j] == StaticScore(y, [x]);
  }
}

=== FILE: seqs.dfy ===
/** Sequence operations the pipeline is built from: duplicate removal
    (`list(set(xs))`, pandas `unique()`), filtering by non-membership
    (`[p for p in xs if p not in ys]`), and the facts relating them. */
module Seqs {

  /** No element occurs twice. */
  predicate Distinct<T(==)>(xs: seq<T>) {
    forall i, j :: 0 <= i < j < |xs| ==> xs[i] != xs[j]
  }

  /** `a` is obtained from `b` by deleting zero or more elements. */
  predicate IsSubsequence<T(==)>(a: seq<T>, b: seq<T>)
    decreases |b|
  {
    if a == [] then true
    else if b == [] then false
    else if a[0] == b[0] then IsSubsequence(a[1..], b[1..])
    else IsSubsequence(a, b[1..])
  }

  /** The position of the first occurrence of `x` in `xs`. */
  function FirstIndex<T(==)>(xs: seq<T>, x: T): (k: nat)
    requires x in xs
    ensures k < |xs| && xs[k] == x && x !in xs[..k]
  {
    if xs[0] == x then 0
    else
      var k := 1 + FirstIndex(xs[1..], x);
      assert xs[..k] == [xs[0]] + xs[1..][..k - 1];
      k
  }

  /** A position holding `x` with no earlier `x` is the first index of `x`. */
  lemma FirstIndexUnique<T>(xs: seq<T>, x: T, k: nat)
    requires k < |xs| && xs[k] == x && x !in xs[..k]
    ensures FirstIndex(xs, x) == k
  {
  }

  /** The first occurrence of an element of a prefix lies in that prefix. */
  lemma FirstIndexInPrefix<T>(xs: seq<T>, m: nat, x: T)
    requires m <= |xs| && x in xs[..m]
    ensures FirstIndex(xs, x) == FirstIndex(xs[..m], x) < m
  {
    var k := FirstIndex(xs[..m], x);
    assert xs[..m][..k] == xs[..k];
    FirstIndexUnique(xs, x, k);
  }

  /** The distinct elements of `xs`, each at the place of its first occurrence
      (pandas `Series.unique()`). Python's `list(set(xs))` yields the same
      elements in an unspecified order; where it is modelled by this function,
      only the element set and distinctness are relied upon. */
  function Dedup<T(==,!new)>(xs: seq<T>): (r: seq<T>)
    ensures Distinct(r)
    ensures forall x :: x in r <==> x in xs
    ensures |r| <= |xs|
    decreases |xs|
  {
    if xs == [] then []
    else
      var init := xs[..|xs| - 1];
      var last := xs[|xs| - 1];
      assert xs == init + [last];
      var d := Dedup(init);
      if last in d then d else d + [last]
  }

  /** Dedup keeps first occurrences in order: an element listed earlier in the
      result first occurs earlier in the input. Together with Dedup's own
      contract this fixes the result uniquely. */
  lemma {:induction false} DedupFirstOccurrenceOrder<T(!new)>(xs: seq<T>)
    ensures forall i, j :: 0 <= i < j < |Dedup(xs)| ==>
              FirstIndex(xs, Dedup(xs)[i]) < FirstIndex(xs, Dedup(xs)[j])
    decreases |xs|
  {
    if xs != [] {
      var n := |xs| - 1;
      var init := xs[..n];
      var last := xs[n];
      assert xs == init + [last];
      assert xs[..n] == init;
      DedupFirstOccurrenceOrder(init);
      var d := Dedup(init);
      var r := Dedup(xs);
      forall i, j | 0 <= i < j < |r|
        ensures FirstIndex(xs, r[i]) < FirstIndex(xs, r[j])
      {
        FirstIndexInPrefix(xs, n, r[i]);
        if j < |d| {
          FirstIndexInPrefix(xs, n, r[j]);
        } else {
          assert r[j] == last && last !in init;
          FirstIndexUnique(xs, last, n);
        }
      }
    }
  }

  /** Dedup leaves a sequence without duplicates unchanged. */
  lemma {:induction false} DedupOfDistinct<T(!new)>(xs: seq<T>)
    requires Distinct(xs)
    ensures Dedup(xs) == xs
    decreases |xs|
  {
    if xs != [] {
      var init := xs[..|xs| - 1];
      assert Distinct(init);
      DedupOfDistinct(init);
      assert xs[|xs| - 1] !in init;
      assert xs == init + [xs[|xs| - 1]];
    }
  }

  /** The elements of `xs` that do not occur in `ys`, in their original order. */
  function Without<T(==,!new)>(xs: seq<T>, ys: seq<T>): (r: seq<T>)
    ensures forall x :: x in r <==> x in xs && x !in ys
    ensures IsSubsequence(r, xs)
    ensures |r| <= |xs|
    decreases |xs|
  {
    if xs == [] then []
    else
      var rest := Without(xs[1..], ys);
      assert xs == [xs[0]] + xs[1..];
      if xs[0] in ys then
        assert rest == [] || rest[0] != xs[0];
        rest
      else
        assert ([xs[0]] + rest)[1..] == rest;
        [xs[0]] + rest
  }

  /** A subsequence of `b[1..]` is a subsequence of `b`. */
  lemma {:induction false} SubsequenceDropHead<T>(a: seq<T>, b: seq<T>)
    requires b != [] && IsSubsequence(a, b[1..])
    ensures IsSubsequence(a, b)
    decreases |b|, 0
  {
    if a != [] && a[0] == b[0] {
      SubsequenceTail(a, b[1..]);
    }
  }

  /** Dropping the first element of a subsequence leaves a subsequence. */
  lemma {:induction false} SubsequenceTail<T>(a: seq<T>, c: seq<T>)
    requires a != [] && IsSubsequence(a, c)
    ensures IsSubsequence(a[1..], c)
    decreases |c|, 1
  {
    if a[0] == c[0] {
      SubsequenceDropHead(a[1..], c);
    } else {
      SubsequenceTail(a, c[1..]);
      SubsequenceDropHead(a[1..], c);
    }
  }

  /** Removing a superset of the elements leaves nothing. */
  lemma {:induction false} WithoutCovered<T(!new)>(xs: seq<T>, ys: seq<T>)
    requires forall x :: x in xs ==> x in ys
    ensures Without(xs, ys) == []
    decreases |xs|
  {
    if xs != [] {
      assert xs[0] in ys;
      assert forall x :: x in xs[1..] ==> x in xs;
      WithoutCovered(xs[1..], ys);
    }
  }

  /** Removing elements that do not occur changes nothing. */
  lemma {:induction false} WithoutDisjoint<T(!new)>(xs: seq<T>, ys: seq<T>)
    requires forall x :: x in xs ==> x !in ys
    ensures Without(xs, ys) == xs
    decreases |xs|
  {
    if xs != [] {
      assert xs[0] !in ys;
      assert forall x :: x in xs[1..] ==> x in xs;
      WithoutDisjoint(xs[1..], ys);
      assert xs == [xs[0]] + xs[1..];
    }
  }

  /** Filtering a concatenation filters each part: every kept element keeps
      its multiplicity and position. */
  lemma {:induction false} WithoutAppend<T(!new)>(a: seq<T>, b: seq<T>, ys: seq<T>)
    ensures Without(a + b, ys) == Without(a, ys) + Without(b, ys)
    decreases |a|
  {
    if a == [] {
      assert a + b == b;
    } else {
      assert (a + b)[1..] == a[1..] + b;
      assert (a + b)[0] == a[0];
      WithoutAppend(a[1..], b, ys);
    }
  }
}

=== FILE: text.dfy ===
/** The string formatting the report prompt uses: `sep.join(xs)`,
    `str(n)` for a natural number, and `str.strip()`. */
module Text {
  import opened Seqs

  /** Python's `sep.join(xs)`. */
  function Join(sep: string, xs: seq<string>): string
    decreases |xs|
  {
    if xs == [] then ""
    else if |xs| == 1 then xs[0]
    else xs[0] + sep + Join(sep, xs[1..])
  }

  /** Python's `s.split(c)` for a one-character separator: the maximal pieces
      between occurrences of `c`. */
  function SplitOn(s: string, c: char): (parts: seq<string>)
    ensures |parts| >= 1
    ensures forall i :: 0 <= i < |parts| ==> c !in parts[i]
    decreases |s|
  {
    if c !in s then [s]
    else
      var k := FirstIndex(s, c);
      [s[..k]] + SplitOn(s[k + 1..], c)
  }

  /** Joining pieces that do not contain `c` with `c`, then splitting on `c`,
      gives the pieces back. */
  lemma {:induction false} SplitJoin(xs: seq<string>, c: char)
    requires |xs| >= 1
    requires forall i :: 0 <= i < |xs| ==> c !in xs[i]
    ensures SplitOn(Join([c], xs), c) == xs
    decreases |xs|
  {
    if |xs| > 1 {
      var rest := Join([c], xs[1..]);
      var s := xs[0] + [c] + rest;
      assert Join([c], xs) == s;
      assert s[|xs[0]|] == c && s[..|xs[0]|] == xs[0];
      FirstIndexUnique(s, c, |xs[0]|);
      assert s[|xs[0]| + 1..] == rest;
      SplitJoin(xs[1..], c);
      assert xs == [xs[0]] + xs[1..];
    }
  }

  /** Splitting on `c` and joining with `c` gives the string back. */
  lemma {:induction false} JoinSplit(s: string, c: char)
    ensures Join([c], SplitOn(s, c)) == s
    decreases |s|
  {
    if c in s {
      var k := FirstIndex(s, c);
      var head, tail := s[..k], s[k + 1..];
      SplitOnFirst(s, c, k);
      JoinCons(head, SplitOn(tail, c), [c]);
      JoinSplit(tail, c);
      assert s == head + [c] + tail;
    }
  }

  /** The first piece ends at the first occurrence of the separator. */
  lemma SplitOnFirst(s: string, c: char, k: nat)
    requires c in s && k == FirstIndex(s, c)
    ensures SplitOn(s, c) == [s[..k]] + SplitOn(s[k + 1..], c)
  {
  }

  /** Joining a first piece in front of a non-empty rest puts one separator
      between them. */
  lemma JoinCons(x: string, ys: seq<string>, sep: string)
    requires ys != []
    ensures Join(sep, [x] + ys) == x + sep + Join(sep, ys)
  {
    assert ([x] + ys)[1..] == ys;
  }

  /** The character for a decimal digit. */
  function DigitChar(d: nat): (c: char)
    requires d < 10
    ensures '0' <= c <= '9'
  {
    "0123456789"[d]
  }

  /** The value of a decimal digit character. */
  function DigitValue(c: char): nat
    requires '0' <= c <= '9'
  {
    (c as int) - ('0' as int)
  }

  predicate IsDigits(s: string) {
    forall i :: 0 <= i < |s| ==> '0' <= s[i] <= '9'
  }

  /** Python's `str(n)` for a natural number: decimal digits, no leading zero. */
  function NatToString(n: nat): (s: string)
    ensures |s| >= 1 && IsDigits(s)
    ensures s[0] == '0' ==> n == 0
    decreases n
  {
    if n < 10 then [DigitChar(n)]
    else NatToString(n / 10) + [DigitChar(n % 10)]
  }

  /** The number a string of decimal digits denotes. */
  function ParseDecimal(s: string): nat
    requires IsDigits(s)
    decreases |s|
  {
    if s == [] then 0
    else ParseDecimal(s[..|s| - 1]) * 10 + DigitValue(s[|s| - 1])
  }

  /** Reading back the decimal rendering of `n` gives `n`. */
  lemma {:induction false} ParseNatToString(n: nat)
    ensures ParseDecimal(NatToString(n)) == n
    decreases n
  {
    var s := NatToString(n);
    if n < 10 {
      assert s[..0] == [];
    } else {
      ParseNatToString(n / 10);
      assert s[..|s| - 1] == NatToString(n / 10);
    }
  }

  /** The characters Python's `str.isspace()` accepts, which `str.strip()`
      removes when called without arguments. */
  predicate IsSpace(c: char) {
    var n := c as int;
    n == 0x20 || 0x09 <= n <= 0x0D || 0x1C <= n <= 0x1F || n == 0x85 || n == 0xA0
    || n == 0x1680 || 0x2000 <= n <= 0x200A || n == 0x2028 || n == 0x2029
    || n == 0x202F || n == 0x205F || n == 0x3000
  }

  /** Every character of `s[lo..hi]` is whitespace. */
  predicate SpaceBetween(s: string, lo: nat, hi: nat)
    requires lo <= hi <= |s|
  {
    forall i :: lo <= i < hi ==> IsSpace(s[i])
  }

  /** The end of the whitespace run starting at `i`. */
  function SpanLeft(s: string, i: nat): (k: nat)
    requires i <= |s|
    ensures i <= k <= |s| && SpaceBetween(s, i, k)
    ensures k == |s| || !IsSpace(s[k])
    decreases |s| - i
  {
    if i < |s| && IsSpace(s[i]) then SpanLeft(s, i + 1) else i
  }

  /** The start of the whitespace run ending at `j`, not going below `lo`. */
  function SpanRight(s: string, lo: nat, j: nat): (k: nat)
    requires lo <= j <= |s|
    ensures lo <= k <= j && SpaceBetween(s, k, j)
    ensures k == lo || !IsSpace(s[k - 1])
    decreases j - lo
  {
    if lo < j && IsSpace(s[j - 1]) then SpanRight(s, lo, j - 1) else j
  }

  /** Python's `s.strip()`: the result is the part of `s` left after removing
      whitespace at both ends; it neither starts nor ends with whitespace,
      and what was cut off on either side is whitespace only. */
  function Strip(s: string): (r: string)
    ensures r == [] || (!IsSpace(r[0]) && !IsSpace(r[|r| - 1]))
    ensures exists a :: 0 <= a && a + |r| <= |s| && r == s[a..a + |r|]
              && SpaceBetween(s, 0, a) && SpaceBetween(s, a + |r|, |s|)
  {
    var a := SpanLeft(s, 0);
    var b := SpanRight(s, a, |s|);
    assert b > a ==> s[a..b][0] == s[a] && s[a..b][b - a - 1] == s[b - 1];
    s[a..b]
  }
}

=== FILE: wrappers.dfy ===
/** Optional values, and the outcome of one call to the generative service. */
module Wrappers {

  /** A value that may be absent: a dictionary key that is not there, or a
      table column that does not exist. */
  datatype Option<+T> = None | Some(value: T) {

    /** The value, or `default` when absent (Python's `dict.get(key, default)`). */
    function GetOr(default: T): T {
      match this
      case Some(v) => v
      case None => default
    }
  }

  /** What one call to the generative service yields. The call either raised
      (`message` is the exception text) or returned text that has already been
      parsed into the shape the caller asks for; `T` carries the parse outcome,
      including "unparsable" where the caller distinguishes it. */
  datatype Reply<+T> = Raised(message: string) | Returned(value: T)

  /** The text of Python's `KeyError` for a missing key: the key in quotes. */
  function KeyError(key: string): string {
    "'" + key + "'"
  }
}
